=== FILE: README.md ===
# gotags struct-tag pipeline in Dafny

gotags reads Go struct-field annotations such as `validator:"gt:10;lt:130"`.
It splits each annotation into `key[=value]` tags, checks every tag against a
schema of registered keys, enforces the keys marked required, and returns the
selected fields with their tags in declaration order. A user processor may
then run over those fields.

This project models that pipeline as pure functions over immutable data and
proves properties of it. It covers:

- the lexer: splitting an annotation on the separator, and a segment at its
  first `equals`;
- the validator: first-match key lookup, the arity rule, user validators;
- the required-key check and the cache of required key names;
- the field walk and the processor pass of `ParseStruct`;
- the settings builders and the package constructors;
- the query helpers of `Field`, including `TagMap` and `SetValue`.

Reflection is replaced by data. A struct is a sequence of field descriptors
(`Records.FieldDescriptor`): name, exported flag, kind, struct-tag annotations,
whether the storage can be written, and the current value.

User callbacks are uninterpreted total functions stored in the settings:
`Keys.Validator` and `Settings.Processor`. The conversion used when key/value
logic is off, `newTagFromValueString`, is not part of this model. It is a
parameter `valueTag` of the parse functions.

Errors are the constructors of `Wrappers.Error`. Every failing operation
returns its error and no partial result, as the Go code returns `nil` fields.

Modules follow the source files:

- `GoStrings`: the `strings` functions the lexer uses;
- `Keys`: key.go;
- `Tags`: tag.go;
- `TagData`: tag_data.go;
- `Records`: the reflection data;
- `Fields`: field.go;
- `FieldData`: field_data.go;
- `Settings` and `Parse`: tag_settings.go;
- `Gotags`: gotags.go;
- `Scenarios`: concrete cases taken from the library's tests and example program, proved about the model.

Three behaviours of the code worth knowing:

- An annotation with empty content (`testtag:""`) gets no error of its own.
  `strings.Split("", sep)` yields `[""]` (tag_settings.go:237), so the
  annotation lexes to the single tag `Tag("", "")`. That tag then fails as the
  unknown key `""`, prefixed with the field name
  (`Parse.EmptyAnnotationRejected`). The test at
  t_tag_settings_test.go:296-316 expects an error and nil fields, which this
  gives.
- Included untagged fields still go through the required-key check of
  tag_settings.go:286-297 (called at tag_settings.go:200), with an empty tag
  list. So any required key rejects them.
- `NewKey` takes four arguments (gotags.go:13). The tests in
  t_gotags_test.go call a five-argument form and read a `disableKeyValidation`
  flag, neither of which the library defines. The model follows gotags.go.

## Model

| member | source | states |
|---|---|---|
| GoStrings.Split | tag_settings.go:237 | Splitting never yields an empty list. Joining the parts with the separator gives the input back. No part contains the separator. Each part ends at the leftmost separator in what remains, so a self-overlapping separator splits as Go splits it. |
| GoStrings.SplitUnique | tag_settings.go:237 | Those properties determine the result: any list of parts meeting them equals `Split`'s. |
| GoStrings.SplitOverlappingSeparator | tag_settings.go:237 | `"aaa"` split on `"aa"` gives `["", "a"]`, not `["a", ""]`. |
| GoStrings.SplitFirst | tag.go:15 | `SplitN(s, sep, 2)` yields one part (the whole input) exactly when the separator does not occur. Otherwise it yields two parts around the first occurrence. |
| GoStrings.SplitJoin | tag_settings.go:237 | For a one-character separator, splitting undoes joining any non-empty list of pieces that do not contain it. |
| Tags.NewTagFromString | tag.go:14-36 | Lexing never fails; neither error branch is reachable. Without `equals` the segment is a key with empty value. Otherwise key, `equals` and value concatenate to the segment, and the split is at the first occurrence. |
| Tags.TagRoundTrip | tag.go:14-36 | `k + equals + v` lexes back to `Tag(k, v)` whatever `v` contains, provided no occurrence of `equals` starts inside `k`. |
| Tags.TagRoundTripSingleChar | tag.go:14-36 | For a one-character `equals`, it suffices that the key does not contain it. |
| Tags.OverlappingEqualsShiftsSplit | tag.go:15 | For the self-overlapping `equals` "aa", a key without "aa" can still fail the round trip: "a"+"aa"+"b" lexes to key "" and value "ab". |
| Tags.Validate | tag.go:38-51 | A boolean key with a value fails, and a non-boolean key without one fails. Otherwise the validator's verdict is returned unchanged. Validation passes iff the arity rule holds and the validator (if any) accepts. |
| Tags.ArityBeforeValidator | tag.go:38-45 | When the arity check fails, the validator is never consulted: replacing it changes nothing. |
| Tags.BareKeyMatchesEmptyValue | tag.go:14-51 | For a one-character `equals` and a key `k` without it, `k` and `k=` lex to the same tag, so they validate identically. |
| Tags.FindTag | field.go:19-25 | Returns the position of the first tag with the key, and none iff no tag has it. |
| TagData.NewTagData | tag_data.go:14-36 | The older revision's lexer: it never fails and splits at the first `equals`, as above. |
| TagData.ValidateData | tag_data.go:38-51 | The older revision's arity-then-validator check, with the same iff. |
| TagData.NewTagDataKeepsRemainder | tag_data.go:14-36 | The value is everything after the first `equals`, verbatim, even when it contains `equals`. |
| Records.LookupAnnotation | tag_settings.go:228-231 | The struct-tag lookup returns the content of the first annotation with the name, and none iff there is none. |
| Fields.KeyValueBool | field.go:18-26 | Reports presence iff some tag has the key. The value is that of the first such tag, and "" when absent. |
| Fields.KeyValue | field.go:29-32 | Gives the first-match value, or "" when the key is absent. |
| Fields.HasKey | field.go:35-38 | True iff some tag has the key. |
| Fields.KeyValueHidesBooleanKeys | field.go:29-38 | Adding a boolean tag for an absent key leaves `KeyValue` at "" but makes `HasKey` true. |
| Fields.SetValue | field.go:46-58 | An unsettable slot fails first, then a type mismatch fails. On failure the record is unchanged. On success only that slot's value changes. |
| FieldData.KeyValueBool | field_data.go:18-26 | First-match lookup over `TagData`, as in field.go. |
| FieldData.KeyValue | field_data.go:29-32 | First-match value, or "". |
| FieldData.HasKey | field_data.go:35-38 | True iff some tag has the key. |
| FieldData.TagMapOf | field_data.go:72-80 | The map's keys are exactly the tags' keys, and each maps to the value of its last occurrence. |
| FieldData.TagMapStep | field_data.go:75-77 | One loop iteration (`m[k] = v`) preserves that invariant for the extended tag list. |
| FieldData.TagMap | field_data.go:72-80 | The field's map has exactly its keys, and the last occurrence wins. |
| FieldData.TagMapAgreesWithKeyValue | field_data.go:18-32 | For a key that occurs once, `TagMap` and `KeyValue` give the same value. |
| FieldData.TagMapLastWins | field_data.go:72-80 | The map holds the value of the key's last occurrence, so for a duplicated key later tags overwrite earlier ones. |
| FieldData.SetValue | field_data.go:46-58 | The same guarded write as in field.go. |
| Settings.RequiredKeys | tag_settings.go:299-309 | Never longer than the key list. A name is listed iff some key of that name is marked required. |
| Settings.RequiredKeysAppend | tag_settings.go:299-309 | Computing required names distributes over concatenation of key lists, so the order follows key order. |
| Settings.WithNoKeyValueLogic | tag_settings.go:37-40 | Sets the disable flag; every other setting is unchanged and the cache stays valid. |
| Settings.WithCustomSeparators | tag_settings.go:46-51 | Sets both delimiters and re-enables key/value logic; every other setting is unchanged. |
| Settings.WithProcessor | tag_settings.go:57-60 | Stores the processor as given, so `None` (Go's `nil`) removes it. Every other setting is unchanged. |
| Settings.IncludeUntaggedFields | tag_settings.go:64-67 | Sets the include flag; every other setting is unchanged. |
| Settings.AddKey | tag_settings.go:81-87 | Appends the key without a duplicate check. The name is appended to the cache exactly when the key is required, so a valid cache stays valid. |
| Settings.AddKeyExtends | tag_settings.go:72-74 | One iteration of `AddKeys` extends the keys by the next key and the cache by that key's required name, if any. |
| Settings.AddKeys | tag_settings.go:71-77 | Appends all keys in order. The cache grows by their required names in order. Options are unchanged and validity is preserved. |
| Settings.RemoveLoop | tag_settings.go:91-97 | Go's range loop over the shared backing array, with the in-place shift on each removal. It either yields the current slice, no longer than at entry, or fails with the slice panic, whose lower bound exceeds the slice length. `RemoveLoopSkips`, `RemoveLoopAt` and `RemoveLoopSingle` characterise its steps. |
| Settings.RemoveLoopSkips | tag_settings.go:91-95 | Iterations over keys of other names change nothing. |
| Settings.RemoveLoopAt | tag_settings.go:91-97 | Reaching the only key of the name removes it. Every later iteration sees a shifted key of another name. |
| Settings.RemoveLoopSingle | tag_settings.go:90-98 | With at most one key of the name, the loop does not panic. It removes exactly that key, or nothing when there is none. |
| Settings.RemoveKey | tag_settings.go:90-98 | With at most one key of the name, it succeeds, no key of that name remains, and the others keep their order. An absent name changes nothing. On success the cache and all options are untouched. |
| Settings.RemoveKeyLeavesStaleRequiredName | tag_settings.go:90-98 | Removing a required key leaves its name in the cache, so the settings are no longer valid. |
| Settings.RemoveKeyPanicsOnSeparatedDuplicates | tag_settings.go:90-98 | For keys `[a, b, a']` with `a` and `a'` of the same name, the third iteration slices `keys[3:]` of a one-element slice and panics. |
| Settings.RemoveKeyKeepsAdjacentDuplicate | tag_settings.go:90-98 | For keys `[a, a', c]` with `a` and `a'` of the same name, the result is `[a', c]`, so a key of the removed name is still registered. |
| Settings.WithoutName | tag_settings.go:89-98 | The kept keys contain no key of the name and are never more than the input. |
| Settings.WithoutNameAppend | tag_settings.go:89-98 | Dropping a name works piecewise over concatenation, so the remaining keys keep their order. |
| Settings.WithoutNameAbsent | tag_settings.go:89-98 | Without a key of that name, nothing is dropped. |
| Settings.WithoutNameAt | tag_settings.go:89-98 | With exactly one key of the name, dropping every key of that name drops just that one and keeps the rest in order. |
| Settings.RemoveKeySynced | tag_settings.go:89-98 | The corrected removal drops every key of the name and cannot panic. It recomputes the cache, so the settings stay valid and the name is no longer required. With at most one such key it registers the same keys as `RemoveKey`. |
| Gotags.NewKey | gotags.go:13-20 | The key holds exactly the given name, flags and validator. |
| Gotags.NewSettings | tag_settings.go:26-32 | Uses the name with separator ";" and equals ":". There are no keys and no processor, both flags are off, and the empty cache is valid. |
| Gotags.NewTagSettings | gotags.go:29-46 | Stores every argument verbatim and leaves key/value logic on. The cache is valid. A name is cached iff a key of that name is required. No keys give an empty cache. |
| Gotags.NewTagSettingsDefault | gotags.go:52-61 | Uses ";" and ":", does not include untagged fields, keeps the given processor and keys, and its cache is valid. |
| Gotags.RequiredNamesInKeyOrder | t_gotags_test.go:46-58 | With `key1` and `key2` required and `key3` not, the cache is exactly `["key1", "key2"]`. |
| Parse.ReadTagContent | tag_settings.go:227-238 | No segments iff the annotation is absent. With key/value logic off, the whole content is one segment. Otherwise the segments join back to the content, none contains the separator, and each ends at the leftmost remaining separator. |
| Parse.ConvertAsTags | tag_settings.go:240-258 | Always succeeds, one tag per segment, each converted independently in order. |
| Parse.FindMatchingKey | tag_settings.go:276-284 | Returns the first registered key with the name, so later duplicates are shadowed. Returns none iff no key has the name. |
| Parse.CheckTag | tag_settings.go:261-270 | An unregistered key fails with `UnknownKey`. Otherwise the first registered key of that name decides: the result is its `Validate` verdict. The tag passes iff that key's arity rule and validator accept the value. |
| Parse.LaterDuplicateShadowed | tag_settings.go:276-284 | Keys registered after one of the same name never change the check of a tag with that name. |
| Parse.ValidateTags | tag_settings.go:260-274 | Passes iff every tag passes. Otherwise it reports the failure of the first failing tag. |
| Parse.UnknownKeyStopsValidation | tag_settings.go:261-265 | Validation stops with `UnknownKey` at the first unregistered tag, provided all earlier tags passed. |
| Parse.HasRequiredKeys | tag_settings.go:286-297 | Passes iff every cached required name is a key of the field's tags. Otherwise it reports the first missing name in cache order. |
| Parse.SelectionRule | tag_settings.go:171-181 | A field is skipped iff it is unexported, or untagged fields are excluded and it has no annotation for the name. The empty-struct-tag test adds nothing. |
| Parse.FieldTags | tag_settings.go:178-186 | A field's tags correspond one to one, in order, with its annotation segments. |
| Parse.ParseField | tag_settings.go:183-205 | A kept field parses iff validation passes and the required keys are present. A validation error is prefixed with the field name; a required-key error is returned as is. |
| Parse.ParseFieldAccepts | tag_settings.go:183-205 | A kept field parses iff every tag is registered and passes its key, and every required name occurs among its tags. |
| Parse.ParseFields | tag_settings.go:160-213 | The walk `parseFields`, as `Collect` over the skip flags and per-field parses. It succeeds iff every field it does not skip parses, and then returns at most one field per struct field. `CollectKeepsOrder` and `CollectReportsFirstFailure` fix its value and its error. |
| Parse.CollectSucceedsIffAllParse | tag_settings.go:171-206 | The walk succeeds iff every kept position parsed. |
| Parse.CollectKeepsOrder | tag_settings.go:168-212 | On success the walk returns the kept positions' fields in increasing position order. |
| Parse.CollectReportsFirstFailure | tag_settings.go:183-203 | On failure the walk reports the error of the first kept position that failed. |
| Parse.CollectFailsAt | tag_settings.go:183-203 | A failing kept position preceded only by successes is the walk's result. |
| Parse.RunProcessor | tag_settings.go:121-134 | Without a processor it passes. Otherwise it passes iff the processor accepts every field, and it reports the first rejection. |
| Parse.ParseStruct | tag_settings.go:102-119 | Succeeds iff the walk succeeds and the processor accepts its fields, and then returns the walk's fields. A walk error is returned unchanged. A processor error is returned unchanged. |
| Parse.ParseStructKeepsDeclarationOrder | tag_settings.go:160-213 | On success the result holds exactly the kept fields in declaration order, each with its own slot, name, kind and lexed tags. |
| Parse.ParseFieldsSucceedsIff | tag_settings.go:171-206 | The walk succeeds iff every field it does not skip parses. |
| Parse.ParseStructFailsFast | tag_settings.go:183-203 | If a field fails after all earlier kept fields parsed, `ParseStruct` returns that field's error and no fields. |
| Parse.UntaggedFieldHandling | tag_settings.go:173-200 | An exported field without the annotation is skipped unless untagged fields are included. Then it has no tags and fails on the first cached required name, if there is one. |
| Parse.UnexportedFieldSkipped | tag_settings.go:173-175 | Unexported fields are always skipped. |
| Parse.EmptyAnnotationRejected | tag_settings.go:237 | Empty annotation content lexes to `Tag("", "")`. Unless a key named "" is registered, the field fails with that unknown key. |
| Parse.NoKeyValueLogicKeepsOneSegment | tag_settings.go:233-246 | With key/value logic off, the whole content is one segment, even if it contains the separator, and is converted by `valueTag`. |
| Parse.RemovedRequiredKeyRejectsEveryField | tag_settings.go:286-297 | After `RemoveKey` of a required key, every kept field fails. It either uses an unregistered key or lacks the stale required name. |
| Scenarios.DefaultDelimitersSplit | examples/main.go:36 | `gt:10;lt:130` under the default separator `;` splits into `gt:10` and `lt:130`, in that order. |
| Scenarios.DefaultSegmentsLex | examples/main.go:36 | Under the default `equals` `:`, those segments lex to `gt`=`10` and `lt`=`130`. |
| Scenarios.IncludeUntaggedExample | t_tag_settings_test.go:135-170 | With untagged fields included, the struct yields `Name` with tag `required` and `Age` with no tags, in that order. |
| Scenarios.MissingRequiredKeyExample | t_tag_settings_test.go:340-361 | A field tagged `hmm` under a schema with `required` marked required fails with the missing key, and no fields are returned. |

## Left out

- Reflection plumbing is not modelled: `unpackPtr`, `unpackStruct`, `tryUnpackInterface` and `HasType`. The model starts from a struct already turned into field descriptors. The non-pointer, non-struct and interface-unwrapping errors are therefore not represented.
- The checks at tag_settings.go:147-155 apply `reflect.TypeOf` to a `reflect.Value`, which is itself a struct. They never reject anything, and `ParseStruct` is modelled as the walk followed by the processor pass.
- `StringFormatted` and `TagDataFormatted` are not modelled, because they are `fmt.Sprintf` formatting.
- `newTagFromValueString` is not part of this model. It becomes the parameter `valueTag`.
- Validator and processor bodies are not modelled; they are user code. A processor's side effects, such as calling `SetValue` on the fields, are not modelled either.
- Error messages are structured `Error` values, not formatted strings.
- Parse functions require non-empty delimiters (`Parse.Delimited`). Go's `strings.Split` with an empty separator splits into UTF-8 sequences, which the library never relies on.
- Strings are sequences of characters, not UTF-8 bytes. Lexing compares literal substrings, which agrees with Go for any separator.
- Aliasing of the settings object is not modelled. In Go, `WithNoKeyValueLogic`, `WithCustomSeparators`, `WithProcessor`, `IncludeUntaggedFields`, `AddKey`, `AddKeys` and `RemoveKey` change the `*TagSettings` in place, and all but `RemoveKey` return that same pointer (tag_settings.go:37-98). The model returns a new record instead, so a caller holding the old pointer, who would see the change in Go, is not represented. Nor is the sharing of the `Keys` backing array. `NewTagSettings` stores the caller's variadic slice as is (gotags.go:39, reached through `keys...` at gotags.go:59), and a `TagSettings` value copied from another shares that array too. `RemoveKey`'s in-place shift (tag_settings.go:96) therefore rewrites every other holder of the array: after `ks := []Key{a, b}` and `RemoveKey(a.Name)` on settings built from `ks...`, `ks` reads `[b, b]`. Settings built earlier from `ks` then hold `[b, b]` with their required-name cache unchanged. `AddKey`'s `append` (tag_settings.go:82) can likewise overwrite spare capacity another holder shares. Sequences are values, so the model keeps each holder's keys separate.
- Settings.RemoveKey: the no-panic and "no key of the name remains" guarantees are stated only for at most one key of the name. With duplicates the result is characterised only by the two concrete lemmas, `RemoveKeyPanicsOnSeparatedDuplicates` and `RemoveKeyKeepsAdjacentDuplicate`.
- Malformed struct-tag strings, which `reflect.StructTag.Lookup` would mis-parse, are not modelled. Annotations are given already unquoted.
- The example programs under examples/ and the benchmark are not modelled; only the annotation in examples/main.go:36 is used, as a scenario.
- Kinds and value types are opaque names, compared only for equality.
- Disabling the key-existence check (`disableKeyValidation`, `WithNoKeyExistValidation`) and per-key `AllowedKinds` are not modelled. Tests and an example program refer to them, but neither key.go nor tag_settings.go implements them.

## Findings

| source | as written | input that shows it | evidently intended | confidence | as-written member | corrected member |
|---|---|---|---|---|---|---|
| tag_settings.go:90-98 | `RemoveKey` deletes the key from `Keys` but never updates the cached `keysRequired`. | Settings with one required key `k`, then `RemoveKey("k")`: the cache still lists `k`, so every field kept by `ParseStruct` fails, either on an unregistered tag or on the missing `k`. | Removing a key also removes its name from the required names. | high, not executed | Settings.RemoveKey, shown by Settings.RemoveKeyLeavesStaleRequiredName and Parse.RemovedRequiredKeyRejectsEveryField | Settings.RemoveKeySynced |
| tag_settings.go:91-96 | The loop ranges over the original slice while shrinking it in place through the same backing array. | Keys named `a, b, a`: the third iteration evaluates `Keys[3:]` on a slice of length 1 and panics. Keys named `a, a, c`: one `a` remains. | Every key of the name is removed without a panic, since `AddKey` allows duplicates. | high, not executed | Settings.RemoveKey, shown by Settings.RemoveKeyPanicsOnSeparatedDuplicates and Settings.RemoveKeyKeepsAdjacentDuplicate | Settings.RemoveKeySynced |

=== FILE: field_data.dfy ===
/** The earlier revision of the parsed field, whose tags are called `tagData` (field_data.go). */
module FieldData {
  import opened Wrappers
  import opened Tags
  import opened Records

  datatype Field = Field(slot: nat, name: string, kind: Kind, tagData: seq<Tag>)

  /** The value of the first tag with key `key`, paired with true; `("", false)` when there is none. */
  function KeyValueBool(f: Field, key: string): (r: (string, bool))
    ensures r.1 <==> HasTagKey(f.tagData, key)
    ensures !r.1 ==> r.0 == ""
    ensures r.1 ==> exists i :: 0 <= i < |f.tagData| && f.tagData[i] == Tag(key, r.0)
                               && forall j :: 0 <= j < i ==> f.tagData[j].key != key
  {
    match FindTag(f.tagData, key)
    case None => ("", false)
    case Some(i) => (f.tagData[i].value, true)
  }

  /** The first-match value, or "" when the key is absent. */
  function KeyValue(f: Field, key: string): (r: string)
    ensures !HasTagKey(f.tagData, key) ==> r == ""
    ensures HasTagKey(f.tagData, key) ==> exists i :: 0 <= i < |f.tagData| && f.tagData[i] == Tag(key, r)
                                                     && forall j :: 0 <= j < i ==> f.tagData[j].key != key
  {
    KeyValueBool(f, key).0
  }

  /** `key` occurs as the key of some tag. */
  function HasKey(f: Field, key: string): (r: bool)
    ensures r <==> exists i :: 0 <= i < |f.tagData| && f.tagData[i].key == key
  {
    KeyValueBool(f, key).1
  }

  /** The set of keys occurring in a tag list. */
  function KeysOf(tags: seq<Tag>): set<string> {
    set i | 0 <= i < |tags| :: tags[i].key
  }

  /**
   * The map built by assigning `m[tag.key] = tag.value` for every tag in
   * order, so that a later duplicate overwrites an earlier one.
   */
  function TagMapOf(tags: seq<Tag>): (m: map<string, string>)
    ensures m.Keys == KeysOf(tags)
    ensures forall k :: k in m ==> LastOccurrence(tags, k, m[k])
  {
    if |tags| == 0 then map[]
    else
      var init := tags[..|tags| - 1];
      var last := tags[|tags| - 1];
      var m := TagMapOf(init);
      TagMapStep(init, last, m);
      assert tags == init + [last];
      m[last.key := last.value]
  }

  /** Some tag `Tag(k, v)` is followed by no other tag with key `k`. */
  predicate LastOccurrence(tags: seq<Tag>, k: string, v: string) {
    exists i :: 0 <= i < |tags| && tags[i] == Tag(k, v) && forall j :: i < j < |tags| ==> tags[j].key != k
  }

  /** Appending one tag to the list updates the map at that tag's key only. */
  lemma TagMapStep(init: seq<Tag>, last: Tag, m: map<string, string>)
    requires m.Keys == KeysOf(init)
    requires forall k :: k in m ==> LastOccurrence(init, k, m[k])
    ensures var m' := m[last.key := last.value];
            m'.Keys == KeysOf(init + [last]) && forall k :: k in m' ==> LastOccurrence(init + [last], k, m'[k])
  {
    var tags := init + [last];
    var m' := m[last.key := last.value];
    assert KeysOf(tags) == KeysOf(init) + {last.key} by {
      forall k | k in KeysOf(tags) ensures k in KeysOf(init) + {last.key} {
        var i :| 0 <= i < |tags| && tags[i].key == k;
        if i < |init| { assert init[i].key == k; }
      }
      forall k | k in KeysOf(init) ensures k in KeysOf(tags) {
        var i :| 0 <= i < |init| && init[i].key == k;
        assert tags[i].key == k;
      }
      assert tags[|init|].key == last.key;
    }
    forall k | k in m'
      ensures LastOccurrence(tags, k, m'[k])
    {
      if k == last.key {
        assert tags[|init|] == Tag(k, m'[k]);
      } else {
        var i :| 0 <= i < |init| && init[i] == Tag(k, m[k]) && forall j :: i < j < |init| ==> init[j].key != k;
        assert tags[i] == Tag(k, m'[k]);
      }
    }
  }

  /** The key/value map of the field's tags; the last occurrence of a key wins. */
  function TagMap(f: Field): (m: map<string, string>)
    ensures m.Keys == KeysOf(f.tagData)
    ensures forall k :: k in m ==> LastOccurrence(f.tagData, k, m[k])
  {
    TagMapOf(f.tagData)
  }

  /** For a key that occurs exactly once, the map and the first-match lookup agree. */
  lemma TagMapAgreesWithKeyValue(f: Field, key: string, i: nat)
    requires i < |f.tagData| && f.tagData[i].key == key
    requires forall j :: 0 <= j < |f.tagData| && j != i ==> f.tagData[j].key != key
    ensures key in TagMap(f) && TagMap(f)[key] == KeyValue(f, key) == f.tagData[i].value
  {
    assert key in KeysOf(f.tagData);
  }

  /** For a duplicated key, the map keeps the value of the last occurrence. */
  lemma TagMapLastWins(f: Field, key: string, i: nat)
    requires i < |f.tagData| && f.tagData[i].key == key
    requires forall j :: i < j < |f.tagData| ==> f.tagData[j].key != key
    ensures key in TagMap(f) && TagMap(f)[key] == f.tagData[i].value
  {
    assert key in KeysOf(f.tagData);
  }

  /**
   * Writes `v` into the field's slot of `rec`. Refused, with the record left
   * as it was, when the slot cannot be set or the types differ.
   */
  function SetValue(f: Field, rec: Record, v: Value): (r: WriteResult)
    requires f.slot < |rec|
    ensures !rec[f.slot].settable ==> r == WriteResult(rec, Fail(NotSettable(f.name)))
    ensures rec[f.slot].settable && rec[f.slot].value.typ != v.typ ==>
              r == WriteResult(rec, Fail(TypeMismatch(rec[f.slot].value.typ, v.typ)))
    ensures r.outcome.Pass? <==> rec[f.slot].settable && rec[f.slot].value.typ == v.typ
    ensures r.outcome.Fail? ==> r.record == rec
    ensures r.outcome.Pass? ==> |r.record| == |rec| && r.record[f.slot] == rec[f.slot].(value := v)
    ensures r.outcome.Pass? ==> forall j :: 0 <= j < |rec| && j != f.slot ==> r.record[j] == rec[j]
  {
    Write(rec, f.slot, f.name, v)
  }
}

=== FILE: fields.dfy ===
/** A parsed struct field and its queries (field.go). */
module Fields {
  import opened Wrappers
  import opened Tags
  import opened Records

  /**
   * One field of the result: the slot of the struct it aliases, its name, its
   * kind and its tags in annotation order.
   */
  datatype Field = Field(slot: nat, name: string, kind: Kind, tags: seq<Tag>)

  /** The value of the first tag with key `key`, paired with true; `("", false)` when there is none. */
  function KeyValueBool(f: Field, key: string): (r: (string, bool))
    ensures r.1 <==> HasTagKey(f.tags, key)
    ensures !r.1 ==> r.0 == ""
    ensures r.1 ==> exists i :: 0 <= i < |f.tags| && f.tags[i] == Tag(key, r.0)
                               && forall j :: 0 <= j < i ==> f.tags[j].key != key
  {
    match FindTag(f.tags, key)
    case None => ("", false)
    case Some(i) => (f.tags[i].value, true)
  }

  /** The first-match value, or "" when the key is absent. */
  function KeyValue(f: Field, key: string): (r: string)
    ensures !HasTagKey(f.tags, key) ==> r == ""
    ensures HasTagKey(f.tags, key) ==> exists i :: 0 <= i < |f.tags| && f.tags[i] == Tag(key, r)
                                                  && forall j :: 0 <= j < i ==> f.tags[j].key != key
  {
    KeyValueBool(f, key).0
  }

  /** Some tag has key `key`. */
  function HasKey(f: Field, key: string): (r: bool)
    ensures r <==> exists i :: 0 <= i < |f.tags| && f.tags[i].key == key
  {
    KeyValueBool(f, key).1
  }

  /**
   * Through `KeyValue` an absent key and a present boolean key look the same;
   * only `HasKey` tells them apart.
   */
  lemma KeyValueHidesBooleanKeys(f: Field, key: string)
    requires !HasKey(f, key)
    ensures var g := f.(tags := f.tags + [Tag(key, "")]);
            KeyValue(g, key) == KeyValue(f, key) == "" && HasKey(g, key)
  {
    var g := f.(tags := f.tags + [Tag(key, "")]);
    assert g.tags[|f.tags|].key == key;
    var i :| 0 <= i < |g.tags| && g.tags[i] == Tag(key, KeyValue(g, key))
             && forall j :: 0 <= j < i ==> g.tags[j].key != key;
  }

  /**
   * Writes `v` into the field's slot of `rec`. Refused, with the record left
   * as it was, when the slot cannot be set or when `v`'s type is not the type
   * of the value the slot holds; otherwise only that slot's value changes.
   */
  function SetValue(f: Field, rec: Record, v: Value): (r: WriteResult)
    requires f.slot < |rec|
    ensures !rec[f.slot].settable ==> r == WriteResult(rec, Fail(NotSettable(f.name)))
    ensures rec[f.slot].settable && rec[f.slot].value.typ != v.typ ==>
              r == WriteResult(rec, Fail(TypeMismatch(rec[f.slot].value.typ, v.typ)))
    ensures r.outcome.Pass? <==> rec[f.slot].settable && rec[f.slot].value.typ == v.typ
    ensures r.outcome.Fail? ==> r.record == rec
    ensures r.outcome.Pass? ==> |r.record| == |rec| && r.record[f.slot] == rec[f.slot].(value := v)
    ensures r.outcome.Pass? ==> forall j :: 0 <= j < |rec| && j != f.slot ==> r.record[j] == rec[j]
  {
    Write(rec, f.slot, f.name, v)
  }
}

=== FILE: go_strings.dfy ===
/**
 * The part of Go's `strings` package the tag lexer relies on: `Index`,
 * `Split`, `SplitN(s, sep, 2)` and `Join`, for a non-empty separator.
 * Separators are matched as literal substrings, left to right, without overlap.
 */
module GoStrings {
  import opened Wrappers

  /** `sep` occurs in `s` starting at position `i`. */
  predicate OccursAt(s: string, sep: string, i: nat) {
    i + |sep| <= |s| && s[i..i + |sep|] == sep
  }

  predicate Contains(s: string, sep: string) {
    exists i: nat :: i <= |s| && OccursAt(s, sep, i)
  }

  /** No occurrence of `sep` in `s` starts before position `n`. */
  predicate NoneBefore(s: string, sep: string, n: nat) {
    forall j: nat :: j < n ==> !OccursAt(s, sep, j)
  }

  /** The first position at or after `from` where `sep` occurs in `s`. */
  function IndexFrom(s: string, sep: string, from: nat): (r: Option<nat>)
    requires |sep| > 0
    requires from <= |s|
    ensures r.Some? ==> from <= r.value && OccursAt(s, sep, r.value)
    ensures r.Some? ==> forall j: nat :: from <= j < r.value ==> !OccursAt(s, sep, j)
    ensures r.None? ==> forall j: nat :: from <= j ==> !OccursAt(s, sep, j)
    decreases |s| - from
  {
    if from + |sep| > |s| then None
    else if s[from..from + |sep|] == sep then Some(from)
    else IndexFrom(s, sep, from + 1)
  }

  /** Go's `strings.Index`: the first occurrence of `sep` in `s`, if any. */
  function Index(s: string, sep: string): (r: Option<nat>)
    requires |sep| > 0
    ensures r.None? <==> !Contains(s, sep)
    ensures r.Some? ==> OccursAt(s, sep, r.value) && NoneBefore(s, sep, r.value)
  {
    IndexFrom(s, sep, 0)
  }

  /** Go's `strings.Join`. */
  function Join(parts: seq<string>, sep: string): string
  {
    if |parts| == 0 then ""
    else if |parts| == 1 then parts[0]
    else parts[0] + sep + Join(parts[1..], sep)
  }

  /**
   * Go's `strings.Split` for a non-empty separator: the text between
   * successive leftmost occurrences of `sep`. Never empty; `Split("", sep)`
   * is `[""]`. Each separator consumed is the leftmost one in what remains,
   * which fixes the parts even when `sep` overlaps itself.
   */
  function Split(s: string, sep: string): (r: seq<string>)
    requires |sep| > 0
    ensures |r| >= 1
    ensures Join(r, sep) == s
    ensures forall k :: 0 <= k < |r| ==> !Contains(r[k], sep)
    ensures forall k :: 0 <= k < |r| - 1 ==> NoneBefore(Join(r[k..], sep), sep, |r[k]|)
    decreases |s|
  {
    match Index(s, sep)
    case None => [s]
    case Some(i) =>
      PrefixBeforeFirst(s, sep, i);
      var rest := Split(s[i + |sep|..], sep);
      assert s == s[..i] + sep + s[i + |sep|..];
      LeftmostCons(s[..i], rest, sep);
      [s[..i]] + rest
  }

  /** Putting a part that ends at the leftmost separator in front keeps every part leftmost. */
  lemma LeftmostCons(head: string, rest: seq<string>, sep: string)
    requires |rest| >= 1
    requires NoneBefore(head + sep + Join(rest, sep), sep, |head|)
    requires forall k :: 0 <= k < |rest| - 1 ==> NoneBefore(Join(rest[k..], sep), sep, |rest[k]|)
    ensures forall k :: 0 <= k < |rest| ==> NoneBefore(Join(([head] + rest)[k..], sep), sep, |([head] + rest)[k]|)
  {
    var r := [head] + rest;
    assert r[0..] == r && r[1..] == rest;
    forall k | 1 <= k < |r| - 1
      ensures NoneBefore(Join(r[k..], sep), sep, |r[k]|)
    {
      assert r[k..] == rest[k - 1..] && r[k] == rest[k - 1];
    }
  }

  /** Go's `strings.SplitN(s, sep, 2)` for a non-empty separator. */
  function SplitFirst(s: string, sep: string): (r: seq<string>)
    requires |sep| > 0
    ensures |r| == 1 || |r| == 2
    ensures |r| == 1 <==> !Contains(s, sep)
    ensures |r| == 1 ==> r[0] == s
    ensures |r| == 2 ==> r[0] + sep + r[1] == s && NoneBefore(s, sep, |r[0]|)
  {
    match Index(s, sep)
    case None => [s]
    case Some(i) =>
      assert s == s[..i] + sep + s[i + |sep|..];
      [s[..i], s[i + |sep|..]]
  }

  /** The text before the first occurrence of a separator does not contain it. */
  lemma PrefixBeforeFirst(s: string, sep: string, i: nat)
    requires |sep| > 0
    requires i <= |s| && NoneBefore(s, sep, i)
    ensures !Contains(s[..i], sep)
  {
    forall j: nat | j <= i
      ensures !OccursAt(s[..i], sep, j)
    {
      if j + |sep| <= i {
        assert s[..i][j..j + |sep|] == s[j..j + |sep|];
        assert !OccursAt(s, sep, j);
      }
    }
  }

  /** A one-character separator occurs in `s` only where `s` holds that character. */
  lemma NotContainsChar(s: string, c: char)
    requires forall k :: 0 <= k < |s| ==> s[k] != c
    ensures !Contains(s, [c])
  {
    forall j: nat | j <= |s|
      ensures !OccursAt(s, [c], j)
    {
      if j + 1 <= |s| {
        assert s[j..j + 1][0] == s[j];
      }
    }
  }

  /**
   * `a + sep + b` splits at the end of `a` as long as no occurrence of `sep`
   * starts inside `a`.
   */
  lemma IndexAfterPrefix(a: string, sep: string, b: string)
    requires |sep| > 0
    requires NoneBefore(a + sep + b, sep, |a|)
    ensures Index(a + sep + b, sep) == Some(|a|)
  {
    var s := a + sep + b;
    assert s[|a|..|a| + |sep|] == sep;
    assert OccursAt(s, sep, |a|);
  }

  /**
   * For a one-character separator, an occurrence starting inside `a + sep + b`
   * before `|a|` would be an occurrence inside `a`.
   */
  lemma SingleCharNoneBefore(a: string, sep: string, b: string)
    requires |sep| == 1 && !Contains(a, sep)
    ensures NoneBefore(a + sep + b, sep, |a|)
  {
    var s := a + sep + b;
    forall j: nat | j < |a|
      ensures !OccursAt(s, sep, j)
    {
      assert s[j..j + 1] == a[j..j + 1];
      assert !OccursAt(a, sep, j);
    }
  }

  /**
   * With a one-character separator, splitting undoes joining any non-empty
   * list of pieces that do not contain the separator.
   */
  lemma {:induction false} SplitJoin(parts: seq<string>, sep: string)
    requires |sep| == 1 && |parts| >= 1
    requires forall k :: 0 <= k < |parts| ==> !Contains(parts[k], sep)
    ensures Split(Join(parts, sep), sep) == parts
    decreases |parts|
  {
    if |parts| == 1 {
      assert Index(parts[0], sep).None?;
    } else {
      var rest := Join(parts[1..], sep);
      SingleCharNoneBefore(parts[0], sep, rest);
      IndexAfterPrefix(parts[0], sep, rest);
      var s := parts[0] + sep + rest;
      assert s[..|parts[0]|] == parts[0];
      assert s[|parts[0]| + |sep|..] == rest;
      SplitJoin(parts[1..], sep);
      assert [parts[0]] + parts[1..] == parts;
    }
  }

  /**
   * `Split`'s contract determines its result: any parts that join back to `s`,
   * contain no separator, and end each at the leftmost remaining separator
   * are exactly `Split(s, sep)`.
   */
  lemma {:induction false} SplitUnique(s: string, sep: string, parts: seq<string>)
    requires |sep| > 0 && |parts| >= 1
    requires Join(parts, sep) == s
    requires forall k :: 0 <= k < |parts| ==> !Contains(parts[k], sep)
    requires forall k :: 0 <= k < |parts| - 1 ==> NoneBefore(Join(parts[k..], sep), sep, |parts[k]|)
    ensures Split(s, sep) == parts
    decreases |parts|
  {
    if |parts| == 1 {
      assert Index(s, sep).None?;
    } else {
      var n := |parts[0]|;
      var rest := Join(parts[1..], sep);
      assert s == parts[0] + sep + rest;
      assert s[n..n + |sep|] == sep;
      assert parts[0..] == parts;
      assert NoneBefore(s, sep, n);
      assert OccursAt(s, sep, n);
      var j := Index(s, sep).value;
      assert !(j < n) && !(n < j);
      assert s[..n] == parts[0];
      assert s[n + |sep|..] == rest;
      forall k | 0 <= k < |parts[1..]| - 1
        ensures NoneBefore(Join(parts[1..][k..], sep), sep, |parts[1..][k]|)
      {
        assert parts[1..][k..] == parts[k + 1..];
      }
      SplitUnique(rest, sep, parts[1..]);
      assert [parts[0]] + parts[1..] == parts;
    }
  }

  /** With the self-overlapping separator `"aa"`, `"aaa"` splits as `["", "a"]`, as Go does. */
  lemma SplitOverlappingSeparator()
    ensures Split("aaa", "aa") == ["", "a"]
  {
    var parts := ["", "a"];
    assert Join(parts, "aa") == "aaa";
    assert !OccursAt("a", "aa", 0);
    assert !Contains(parts[0], "aa") && !Contains(parts[1], "aa");
    assert NoneBefore(Join(parts[0..], "aa"), "aa", 0);
    SplitUnique("aaa", "aa", parts);
  }
}

=== FILE: gotags.dfy ===
/** Package-level constructors and defaults (gotags.go, and `NewSettings` of tag_settings.go). */
module Gotags {
  import opened Wrappers
  import opened Keys
  import opened Settings

  const DefaultSeparator: string := ";"
  const DefaultEquals: string := ":"

  /** A key holding exactly the given name, flags and validator. */
  function NewKey(name: string, isBool: bool, isRequired: bool, validator: Option<Validator>): (k: Key)
    ensures k.name == name && k.isBool == isBool && k.isRequired == isRequired
    ensures k.validator == validator
  {
    Key(validator, name, isBool, isRequired)
  }

  /**
   * Settings for annotation `name` with the default delimiters, no keys, no
   * processor and both flags off.
   */
  function NewSettings(name: string): (s: TagSettings)
    ensures s.name == name && s.separator == ";" && s.equals == ":"
    ensures s.keys == [] && s.processor.None? && s.keysRequired == []
    ensures !s.includeNotTagged && !s.disableKeyValueLogic
    ensures Valid(s)
  {
    TagSettings(name, DefaultSeparator, DefaultEquals, [], None, false, false, [])
  }

  /**
   * Stores every argument verbatim and fills the cache with the names of the
   * required keys, in key order.
   */
  function NewTagSettings(name: string, separator: string, equals: string, processor: Option<Processor>,
                          includeNotTagged: bool, keys: seq<Key>): (s: TagSettings)
    ensures s.name == name && s.separator == separator && s.equals == equals
    ensures s.processor == processor && s.includeNotTagged == includeNotTagged && s.keys == keys
    ensures !s.disableKeyValueLogic
    ensures Valid(s)
    ensures forall n :: n in s.keysRequired <==> exists i :: 0 <= i < |keys| && keys[i].isRequired && keys[i].name == n
    ensures |keys| == 0 ==> s.keysRequired == []
  {
    TagSettings(name, separator, equals, keys, processor, includeNotTagged, false, RequiredKeys(keys))
  }

  /** `NewTagSettings` with `";"`, `":"` and untagged fields left out. */
  function NewTagSettingsDefault(name: string, processor: Option<Processor>, keys: seq<Key>): (s: TagSettings)
    ensures s.name == name && s.separator == ";" && s.equals == ":"
    ensures s.processor == processor && s.keys == keys
    ensures !s.includeNotTagged && !s.disableKeyValueLogic
    ensures Valid(s)
  {
    NewTagSettings(name, DefaultSeparator, DefaultEquals, processor, false, keys)
  }

  /**
   * Three keys of which the first two are required give a cache listing
   * exactly those two names, in order.
   */
  lemma RequiredNamesInKeyOrder(v: Validator)
    ensures NewTagSettings("settings", ",", "=", None, true,
              [NewKey("key1", false, true, Some(v)), NewKey("key2", true, true, None), NewKey("key3", true, false, None)]
            ).keysRequired == ["key1", "key2"]
  {
    var keys := [NewKey("key1", false, true, Some(v)), NewKey("key2", true, true, None), NewKey("key3", true, false, None)];
    RequiredKeysAppend([keys[0]], [keys[1], keys[2]]);
    RequiredKeysAppend([keys[1]], [keys[2]]);
    assert keys == [keys[0]] + [keys[1], keys[2]];
    assert [keys[1], keys[2]] == [keys[1]] + [keys[2]];
  }
}

=== FILE: keys.dfy ===
/** Registered annotation keys (key.go). */
module Keys {
  import opened Wrappers

  /** A user-supplied check of a key's value; its body is not part of the model. */
  type Validator = string -> Outcome

  /**
   * One recognised key: its name, whether it is boolean (takes no value),
   * whether every annotated field must carry it, and an optional validator.
   */
  datatype Key = Key(validator: Option<Validator>, name: string, isBool: bool, isRequired: bool)
}

=== FILE: parse.dfy ===
/**
 * The parsing pipeline of tag_settings.go: lexing an annotation into tags,
 * validating them against the registered keys, checking required keys, the
 * walk over a struct's fields and the processor pass.
 */
module Parse {
  import opened Wrappers
  import opened GoStrings
  import opened Keys
  import opened Tags
  import opened Records
  import opened Fields
  import opened Settings

  /** Both delimiters are non-empty, as every use of the library assumes. */
  predicate Delimited(s: TagSettings) {
    |s.separator| > 0 && |s.equals| > 0
  }

  /**
   * The raw segments of a field's annotation for `s.name`: none when the field
   * has no such annotation, the whole content when key/value logic is off,
   * and otherwise the content split on the separator.
   */
  function ReadTagContent(s: TagSettings, anns: seq<Annotation>): (r: seq<string>)
    requires |s.separator| > 0
    ensures |r| == 0 <==> LookupAnnotation(anns, s.name).None?
    ensures LookupAnnotation(anns, s.name).Some? && s.disableKeyValueLogic ==>
              r == [LookupAnnotation(anns, s.name).value]
    ensures LookupAnnotation(anns, s.name).Some? && !s.disableKeyValueLogic ==>
              Join(r, s.separator) == LookupAnnotation(anns, s.name).value
              && (forall k :: 0 <= k < |r| ==> !Contains(r[k], s.separator))
              && forall k :: 0 <= k < |r| - 1 ==> NoneBefore(Join(r[k..], s.separator), s.separator, |r[k]|)
  {
    match LookupAnnotation(anns, s.name)
    case None => []
    case Some(content) =>
      if s.disableKeyValueLogic then [content] else Split(content, s.separator)
  }

  /**
   * One segment as a tag: split at the first `equals`, or, with key/value
   * logic off, handed to `valueTag`, which stands for the library's
   * `newTagFromValueString`.
   */
  function ConvertTag(s: TagSettings, segment: string, valueTag: string -> Tag): Result<Tag>
    requires |s.equals| > 0
  {
    if s.disableKeyValueLogic then Success(valueTag(segment)) else NewTagFromString(segment, s.equals)
  }

  /** Converts every segment, in order; the conversion cannot fail. */
  function ConvertAsTags(s: TagSettings, segments: seq<string>, valueTag: string -> Tag): (r: Result<seq<Tag>>)
    requires |s.equals| > 0
    ensures r.Success? && |r.value| == |segments|
    ensures forall k :: 0 <= k < |segments| ==> Success(r.value[k]) == ConvertTag(s, segments[k], valueTag)
  {
    if |segments| == 0 then Success([])
    else
      match ConvertTag(s, segments[0], valueTag)
      case Failure(e) => Failure(e)
      case Success(t) =>
        match ConvertAsTags(s, segments[1..], valueTag)
        case Failure(e) => Failure(e)
        case Success(rest) =>
          assert forall k :: 1 <= k < |segments| ==> segments[k] == segments[1..][k - 1];
          Success([t] + rest)
  }

  /** The first registered key with exactly this name; later duplicates are shadowed. */
  function FindMatchingKey(keys: seq<Key>, name: string): (r: Option<Key>)
    ensures r.None? <==> forall i :: 0 <= i < |keys| ==> keys[i].name != name
    ensures r.Some? ==> r.value.name == name
    ensures r.Some? ==> exists i :: 0 <= i < |keys| && keys[i] == r.value
                                   && forall j :: 0 <= j < i ==> keys[j].name != name
  {
    if |keys| == 0 then None
    else if keys[0].name == name then Some(keys[0])
    else
      var r := FindMatchingKey(keys[1..], name);
      assert forall i :: 1 <= i < |keys| ==> keys[i] == keys[1..][i - 1];
      assert r.Some? ==> exists i :: 0 <= i < |keys[1..]| && keys[1..][i] == r.value
                                     && forall j :: 0 <= j < i ==> keys[1..][j].name != name;
      r
  }

  /** `keys[i]` is the first registered key named `name`. */
  predicate FirstNamed(keys: seq<Key>, name: string, i: int) {
    0 <= i < |keys| && keys[i].name == name && forall j :: 0 <= j < i ==> keys[j].name != name
  }

  /**
   * The check of one tag: its key must be registered, then `Validate` decides
   * against the first key of that name.
   */
  function CheckTag(keys: seq<Key>, t: Tag): (r: Outcome)
    ensures FindMatchingKey(keys, t.key).None? ==> r == Fail(UnknownKey(t.key))
    ensures r.Pass? <==> exists i :: FirstNamed(keys, t.key, i) && ArityOk(keys[i], t.value) && Accepts(keys[i], t.value)
    ensures forall i :: FirstNamed(keys, t.key, i) ==> r == Validate(t, keys[i])
  {
    match FindMatchingKey(keys, t.key)
    case None => Fail(UnknownKey(t.key))
    case Some(key) =>
      assert forall i :: FirstNamed(keys, t.key, i) ==> keys[i] == key;
      Validate(t, key)
  }

  /**
   * A key registered later under a name already taken never affects the check
   * of a tag with that name.
   */
  lemma LaterDuplicateShadowed(keys: seq<Key>, later: seq<Key>, t: Tag)
    requires exists i :: 0 <= i < |keys| && keys[i].name == t.key
    ensures CheckTag(keys + later, t) == CheckTag(keys, t)
  {
    var k := FindMatchingKey(keys, t.key).value;
    var w :| 0 <= w < |keys| && keys[w] == k && forall j :: 0 <= j < w ==> keys[j].name != t.key;
    assert FirstNamed(keys, t.key, w);
    assert (keys + later)[..|keys|] == keys;
    assert FirstNamed(keys + later, t.key, w);
  }

  /** Applies `check` to each element in order and stops at the first failure, which it returns. */
  function FirstFailure<T>(xs: seq<T>, check: T -> Outcome): (r: Outcome)
    ensures r.Pass? <==> forall i :: 0 <= i < |xs| ==> check(xs[i]).Pass?
    ensures r.Fail? ==> exists i :: 0 <= i < |xs| && check(xs[i]) == r
                                   && forall j :: 0 <= j < i ==> check(xs[j]).Pass?
  {
    if |xs| == 0 then Pass
    else if check(xs[0]).Fail? then check(xs[0])
    else
      var r := FirstFailure(xs[1..], check);
      assert forall i :: 1 <= i < |xs| ==> xs[i] == xs[1..][i - 1];
      assert r.Fail? ==> exists i :: 0 <= i < |xs[1..]| && check(xs[1..][i]) == r
                                     && forall j :: 0 <= j < i ==> check(xs[1..][j]).Pass?;
      r
  }

  /** Succeeds iff every tag passes `CheckTag`; otherwise reports the first tag's failure. */
  function ValidateTags(keys: seq<Key>, tags: seq<Tag>): (r: Outcome)
    ensures r.Pass? <==> forall i :: 0 <= i < |tags| ==> CheckTag(keys, tags[i]).Pass?
    ensures r.Fail? ==> exists i :: 0 <= i < |tags| && CheckTag(keys, tags[i]) == r
                                   && forall j :: 0 <= j < i ==> CheckTag(keys, tags[j]).Pass?
  {
    FirstFailure(tags, t => CheckTag(keys, t))
  }

  /**
   * Validation stops at the first tag whose key is not registered, provided
   * every earlier tag passed.
   */
  lemma UnknownKeyStopsValidation(keys: seq<Key>, tags: seq<Tag>, i: nat)
    requires i < |tags| && forall k :: 0 <= k < |keys| ==> keys[k].name != tags[i].key
    requires forall j :: 0 <= j < i ==> CheckTag(keys, tags[j]).Pass?
    ensures ValidateTags(keys, tags) == Fail(UnknownKey(tags[i].key))
  {
    var r := ValidateTags(keys, tags);
    assert CheckTag(keys, tags[i]) == Fail(UnknownKey(tags[i].key));
    var w :| 0 <= w < |tags| && CheckTag(keys, tags[w]) == r
             && forall j :: 0 <= j < w ==> CheckTag(keys, tags[j]).Pass?;
  }

  /** The missing-key check for one required name. */
  function RequireKey(f: Field, name: string): Outcome {
    if HasKey(f, name) then Pass else Fail(MissingRequiredKey(f.name, name))
  }

  /**
   * Every cached required name must be a key of the field's tags; the first
   * one missing, in cache order, is reported.
   */
  function HasRequiredKeys(s: TagSettings, f: Field): (r: Outcome)
    ensures r.Pass? <==> forall n :: n in s.keysRequired ==> HasTagKey(f.tags, n)
    ensures r.Fail? ==> exists i :: 0 <= i < |s.keysRequired| && !HasTagKey(f.tags, s.keysRequired[i])
                                   && r == Fail(MissingRequiredKey(f.name, s.keysRequired[i]))
                                   && forall j :: 0 <= j < i ==> HasTagKey(f.tags, s.keysRequired[j])
  {
    FirstFailure(s.keysRequired, n => RequireKey(f, n))
  }

  /**
   * The walk skips a field that is not exported, or, unless untagged fields
   * are included, one without any struct tag or without an annotation for
   * `s.name`.
   */
  predicate Skipped(s: TagSettings, d: FieldDescriptor)
    requires |s.separator| > 0
  {
    || !d.exported
    || (|d.annotations| == 0 && !s.includeNotTagged)
    || (|ReadTagContent(s, d.annotations)| == 0 && !s.includeNotTagged)
  }

  /**
   * Exported fields are kept; of those, untagged ones only when untagged
   * fields are included. The walk's test of the whole struct tag being empty
   * adds nothing to the annotation lookup.
   */
  lemma SelectionRule(s: TagSettings, d: FieldDescriptor)
    requires |s.separator| > 0
    ensures Skipped(s, d) <==>
              !d.exported || (!s.includeNotTagged && LookupAnnotation(d.annotations, s.name).None?)
  {
    if |d.annotations| == 0 {
      assert LookupAnnotation(d.annotations, s.name).None?;
    }
  }

  /** The tags lexed from a field's annotation (empty when it has none). */
  function FieldTags(s: TagSettings, d: FieldDescriptor, valueTag: string -> Tag): (r: seq<Tag>)
    requires Delimited(s)
    ensures |r| == |ReadTagContent(s, d.annotations)|
    ensures forall k :: 0 <= k < |r| ==> Success(r[k]) == ConvertTag(s, ReadTagContent(s, d.annotations)[k], valueTag)
  {
    ConvertAsTags(s, ReadTagContent(s, d.annotations), valueTag).value
  }

  /**
   * One iteration of the walk for a field that is not skipped: lex, validate
   * (errors prefixed with the field name), build the field, then check the
   * required keys.
   */
  function ParseField(s: TagSettings, rec: Record, i: nat, valueTag: string -> Tag): (r: Result<Field>)
    requires Delimited(s) && i < |rec|
    ensures var tags := FieldTags(s, rec[i], valueTag);
            r.Success? <==> ValidateTags(s.keys, tags).Pass? && HasRequiredKeys(s, Field(i, rec[i].name, rec[i].kind, tags)).Pass?
    ensures r.Success? ==> r.value == Field(i, rec[i].name, rec[i].kind, FieldTags(s, rec[i], valueTag))
    ensures var tags := FieldTags(s, rec[i], valueTag);
            ValidateTags(s.keys, tags).Fail? ==> r == Failure(InField(rec[i].name, ValidateTags(s.keys, tags).error))
    ensures var tags := FieldTags(s, rec[i], valueTag);
            var hr := HasRequiredKeys(s, Field(i, rec[i].name, rec[i].kind, tags));
            ValidateTags(s.keys, tags).Pass? && hr.Fail? ==> r == Failure(hr.error)
  {
    var d := rec[i];
    match ConvertAsTags(s, ReadTagContent(s, d.annotations), valueTag)
    case Failure(e) => Failure(e)
    case Success(tags) =>
      match ValidateTags(s.keys, tags)
      case Fail(e) => Failure(InField(d.name, e))
      case Pass =>
        var f := Field(i, d.name, d.kind, tags);
        match HasRequiredKeys(s, f)
        case Fail(e) => Failure(e)
        case Pass => Success(f)
  }

  /**
   * A field that is not skipped parses iff every one of its tags passes
   * `CheckTag` and every required name is a key of its tags.
   */
  lemma ParseFieldAccepts(s: TagSettings, rec: Record, i: nat, valueTag: string -> Tag)
    requires Delimited(s) && i < |rec|
    ensures var tags := FieldTags(s, rec[i], valueTag);
            ParseField(s, rec, i, valueTag).Success? <==>
              && (forall k :: 0 <= k < |tags| ==> CheckTag(s.keys, tags[k]).Pass?)
              && (forall n :: n in s.keysRequired ==> HasTagKey(tags, n))
  {
    var tags := FieldTags(s, rec[i], valueTag);
    var f := Field(i, rec[i].name, rec[i].kind, tags);
    assert HasRequiredKeys(s, f).Pass? <==> forall n :: n in s.keysRequired ==> HasTagKey(tags, n);
  }

  /** Whether the walk skips each field, by position. */
  function Skips(s: TagSettings, rec: Record): (r: seq<bool>)
    requires |s.separator| > 0
    ensures |r| == |rec| && forall j :: 0 <= j < |rec| ==> r[j] == Skipped(s, rec[j])
  {
    seq(|rec|, j requires 0 <= j < |rec| => Skipped(s, rec[j]))
  }

  /**
   * What one iteration of the walk yields for each field, by position.
   * Parsing a field is pure, so computing it for a skipped field changes nothing.
   */
  function Parsed(s: TagSettings, rec: Record, valueTag: string -> Tag): (r: seq<Result<Field>>)
    requires Delimited(s)
    ensures |r| == |rec| && forall j :: 0 <= j < |rec| ==> r[j] == ParseField(s, rec, j, valueTag)
  {
    seq(|rec|, j requires 0 <= j < |rec| => ParseField(s, rec, j, valueTag))
  }

  /** The positions, from `i` on, that are not skipped, in increasing order. */
  function Kept(skip: seq<bool>, i: nat): (r: seq<nat>)
    requires i <= |skip|
    ensures forall k :: 0 <= k < |r| ==> i <= r[k] < |skip| && !skip[r[k]]
    ensures forall k, l :: 0 <= k < l < |r| ==> r[k] < r[l]
    ensures forall j :: i <= j < |skip| && !skip[j] ==> j in r
    decreases |skip| - i
  {
    if i == |skip| then []
    else if skip[i] then Kept(skip, i + 1)
    else [i] + Kept(skip, i + 1)
  }

  /**
   * The loop of `parseFields` from position `i`: a skipped field is passed
   * over, a failing field aborts the walk with its error and no fields, and
   * otherwise the field is appended.
   */
  function Collect<F>(skip: seq<bool>, parsed: seq<Result<F>>, i: nat): Result<seq<F>>
    requires |skip| == |parsed| && i <= |skip|
    decreases |skip| - i
  {
    if i == |skip| then Success([])
    else if skip[i] then Collect(skip, parsed, i + 1)
    else
      match parsed[i]
      case Failure(e) => Failure(e)
      case Success(f) =>
        match Collect(skip, parsed, i + 1)
        case Failure(e) => Failure(e)
        case Success(rest) => Success([f] + rest)
  }

  /** The walk succeeds iff every position it does not skip parsed. */
  lemma {:induction false} CollectSucceedsIffAllParse<F>(skip: seq<bool>, parsed: seq<Result<F>>, i: nat)
    requires |skip| == |parsed| && i <= |skip|
    ensures Collect(skip, parsed, i).Success? <==> forall j :: i <= j < |skip| && !skip[j] ==> parsed[j].Success?
    decreases |skip| - i
  {
    if i < |skip| {
      CollectSucceedsIffAllParse(skip, parsed, i + 1);
    }
  }

  /** On success the walk returns the parsed values of the kept positions, in order. */
  lemma {:induction false} CollectKeepsOrder<F>(skip: seq<bool>, parsed: seq<Result<F>>, i: nat)
    requires |skip| == |parsed| && i <= |skip|
    requires Collect(skip, parsed, i).Success?
    ensures var out := Collect(skip, parsed, i).value;
            var kept := Kept(skip, i);
            |out| == |kept| && forall k :: 0 <= k < |out| ==> parsed[kept[k]] == Success(out[k])
    decreases |skip| - i
  {
    if i < |skip| {
      CollectKeepsOrder(skip, parsed, i + 1);
    }
  }

  /** On failure the walk reports the error of the first kept position that failed. */
  lemma {:induction false} CollectReportsFirstFailure<F>(skip: seq<bool>, parsed: seq<Result<F>>, i: nat)
    requires |skip| == |parsed| && i <= |skip|
    requires Collect(skip, parsed, i).Failure?
    ensures var e := Collect(skip, parsed, i).error;
            exists j :: i <= j < |skip| && !skip[j] && parsed[j] == Failure(e)
                        && forall l :: i <= l < j && !skip[l] ==> parsed[l].Success?
    decreases |skip| - i
  {
    if !skip[i] && parsed[i].Failure? {
      assert parsed[i] == Failure(Collect(skip, parsed, i).error);
    } else {
      CollectReportsFirstFailure(skip, parsed, i + 1);
    }
  }

  /**
   * A kept position that fails, after kept positions that all parsed, is the
   * walk's result: its error and nothing else.
   */
  lemma {:induction false} CollectFailsAt<F>(skip: seq<bool>, parsed: seq<Result<F>>, i: nat, j: nat)
    requires |skip| == |parsed| && i <= j < |skip|
    requires !skip[j] && parsed[j].Failure?
    requires forall l :: i <= l < j && !skip[l] ==> parsed[l].Success?
    ensures Collect(skip, parsed, i) == Failure(parsed[j].error)
    decreases j - i
  {
    if i < j {
      CollectFailsAt(skip, parsed, i + 1, j);
    }
  }

  /**
   * The walk over the whole struct (`parseFields`). It succeeds iff every
   * field it does not skip parses; `CollectKeepsOrder` and
   * `CollectReportsFirstFailure` give its value and its error.
   */
  function ParseFields(s: TagSettings, rec: Record, valueTag: string -> Tag): (r: Result<seq<Field>>)
    requires Delimited(s)
    ensures r.Success? <==> forall j :: 0 <= j < |rec| && !Skipped(s, rec[j]) ==> ParseField(s, rec, j, valueTag).Success?
    ensures r.Success? ==> |r.value| <= |rec|
  {
    CollectSucceedsIffAllParse(Skips(s, rec), Parsed(s, rec, valueTag), 0);
    var r := Collect(Skips(s, rec), Parsed(s, rec, valueTag), 0);
    assert r.Success? ==> |r.value| <= |rec| by {
      if r.Success? {
        CollectKeepsOrder(Skips(s, rec), Parsed(s, rec, valueTag), 0);
        KeptBound(Skips(s, rec), 0);
      }
    }
    r
  }

  /** At most one kept position per remaining position. */
  lemma {:induction false} KeptBound(skip: seq<bool>, i: nat)
    requires i <= |skip|
    ensures |Kept(skip, i)| <= |skip| - i
    decreases |skip| - i
  {
    if i < |skip| {
      KeptBound(skip, i + 1);
    }
  }

  /**
   * Without a processor, nothing happens. Otherwise the processor runs on
   * each field in order and the first error stops it and is returned.
   */
  function RunProcessor(s: TagSettings, fields: seq<Field>): (r: Outcome)
    ensures s.processor.None? ==> r == Pass
    ensures s.processor.Some? ==> (r.Pass? <==> forall k :: 0 <= k < |fields| ==> s.processor.value(fields[k]).Pass?)
    ensures s.processor.Some? && r.Fail? ==>
              exists k :: 0 <= k < |fields| && s.processor.value(fields[k]) == r
                          && forall j :: 0 <= j < k ==> s.processor.value(fields[j]).Pass?
  {
    match s.processor
    case None => Pass
    case Some(p) => FirstFailure(fields, p)
  }

  /**
   * `ParseStruct` on a struct already unpacked into descriptors: the walk,
   * then the processor pass. Any error yields no fields at all.
   */
  function ParseStruct(s: TagSettings, rec: Record, valueTag: string -> Tag): (r: Result<seq<Field>>)
    requires Delimited(s)
    ensures var w := ParseFields(s, rec, valueTag);
            r.Success? <==> w.Success? && RunProcessor(s, w.value).Pass?
    ensures var w := ParseFields(s, rec, valueTag);
            r.Success? ==> r.value == w.value
    ensures var w := ParseFields(s, rec, valueTag);
            w.Failure? ==> r == w
    ensures var w := ParseFields(s, rec, valueTag);
            w.Success? && RunProcessor(s, w.value).Fail? ==> r == Failure(RunProcessor(s, w.value).error)
  {
    match ParseFields(s, rec, valueTag)
    case Failure(e) => Failure(e)
    case Success(fields) =>
      match RunProcessor(s, fields)
      case Fail(e) => Failure(e)
      case Pass => Success(fields)
  }

  /**
   * On success the result holds exactly the fields the walk does not skip,
   * in declaration order, each with its lexed tags in annotation order.
   */
  lemma ParseStructKeepsDeclarationOrder(s: TagSettings, rec: Record, valueTag: string -> Tag)
    requires Delimited(s) && ParseStruct(s, rec, valueTag).Success?
    ensures var fields := ParseStruct(s, rec, valueTag).value;
            var slots := Kept(Skips(s, rec), 0);
            |fields| == |slots|
            && forall k :: 0 <= k < |fields| ==>
                 fields[k] == Field(slots[k], rec[slots[k]].name, rec[slots[k]].kind, FieldTags(s, rec[slots[k]], valueTag))
  {
    CollectKeepsOrder(Skips(s, rec), Parsed(s, rec, valueTag), 0);
  }

  /** The walk over the struct succeeds iff every field it does not skip parses. */
  lemma ParseFieldsSucceedsIff(s: TagSettings, rec: Record, valueTag: string -> Tag)
    requires Delimited(s)
    ensures ParseFields(s, rec, valueTag).Success? <==>
              forall j :: 0 <= j < |rec| && !Skipped(s, rec[j]) ==> ParseField(s, rec, j, valueTag).Success?
  {
    CollectSucceedsIffAllParse(Skips(s, rec), Parsed(s, rec, valueTag), 0);
  }

  /**
   * If a field fails while every earlier selected field parses, `ParseStruct`
   * returns that field's error and no fields at all, even though earlier
   * fields parsed.
   */
  lemma ParseStructFailsFast(s: TagSettings, rec: Record, valueTag: string -> Tag, j: nat)
    requires Delimited(s) && j < |rec| && !Skipped(s, rec[j])
    requires ParseField(s, rec, j, valueTag).Failure?
    requires forall l :: 0 <= l < j && !Skipped(s, rec[l]) ==> ParseField(s, rec, l, valueTag).Success?
    ensures ParseStruct(s, rec, valueTag) == Failure(ParseField(s, rec, j, valueTag).error)
  {
    CollectFailsAt(Skips(s, rec), Parsed(s, rec, valueTag), 0, j);
  }

  /**
   * An exported field without an annotation for `s.name` is left out unless
   * untagged fields are included; then it is kept with no tags and must
   * still pass the required-key check, failing on the first cached name.
   */
  lemma UntaggedFieldHandling(s: TagSettings, rec: Record, j: nat, valueTag: string -> Tag)
    requires Delimited(s) && j < |rec| && rec[j].exported
    requires LookupAnnotation(rec[j].annotations, s.name).None?
    ensures !s.includeNotTagged ==> Skipped(s, rec[j])
    ensures s.includeNotTagged ==> !Skipped(s, rec[j]) && FieldTags(s, rec[j], valueTag) == []
    ensures s.includeNotTagged && s.keysRequired == [] ==>
              ParseField(s, rec, j, valueTag) == Success(Field(j, rec[j].name, rec[j].kind, []))
    ensures s.includeNotTagged && s.keysRequired != [] ==>
              ParseField(s, rec, j, valueTag) == Failure(MissingRequiredKey(rec[j].name, s.keysRequired[0]))
  {
    SelectionRule(s, rec[j]);
    var f := Field(j, rec[j].name, rec[j].kind, []);
    if s.keysRequired != [] {
      assert !HasTagKey(f.tags, s.keysRequired[0]);
    }
  }

  /** An unexported field is never part of the result. */
  lemma UnexportedFieldSkipped(s: TagSettings, d: FieldDescriptor)
    requires |s.separator| > 0 && !d.exported
    ensures Skipped(s, d)
  {
  }

  /**
   * An annotation with empty content lexes to a single tag with the empty
   * key, so the field is rejected unless a key with the empty name is
   * registered.
   */
  lemma EmptyAnnotationRejected(s: TagSettings, rec: Record, j: nat, valueTag: string -> Tag)
    requires Delimited(s) && !s.disableKeyValueLogic && j < |rec| && rec[j].exported
    requires LookupAnnotation(rec[j].annotations, s.name) == Some("")
    requires forall k :: 0 <= k < |s.keys| ==> s.keys[k].name != ""
    ensures !Skipped(s, rec[j])
    ensures FieldTags(s, rec[j], valueTag) == [Tag("", "")]
    ensures ParseField(s, rec, j, valueTag) == Failure(InField(rec[j].name, UnknownKey("")))
  {
    SelectionRule(s, rec[j]);
    assert Split("", s.separator) == [""];
    var tags := FieldTags(s, rec[j], valueTag);
    assert tags[0] == Tag("", "");
    UnknownKeyStopsValidation(s.keys, tags, 0);
  }

  /**
   * With key/value logic off the whole annotation is one segment, even when
   * it contains the separator.
   */
  lemma NoKeyValueLogicKeepsOneSegment(s: TagSettings, rec: Record, j: nat, valueTag: string -> Tag)
    requires Delimited(s) && s.disableKeyValueLogic && j < |rec|
    requires LookupAnnotation(rec[j].annotations, s.name).Some?
    ensures ReadTagContent(s, rec[j].annotations) == [LookupAnnotation(rec[j].annotations, s.name).value]
    ensures FieldTags(s, rec[j], valueTag) == [valueTag(LookupAnnotation(rec[j].annotations, s.name).value)]
  {
  }

  /**
   * After `RemoveKey` of a required key, every field the walk keeps fails:
   * its tags either use an unregistered key or lack the stale required name.
   */
  lemma RemovedRequiredKeyRejectsEveryField(s: TagSettings, i: nat, rec: Record, j: nat, valueTag: string -> Tag)
    requires Valid(s) && i < |s.keys| && s.keys[i].isRequired && AtMostOnce(s.keys, s.keys[i].name)
    requires Delimited(s) && j < |rec|
    ensures RemoveKey(s, s.keys[i].name).Success?
    ensures ParseField(RemoveKey(s, s.keys[i].name).value, rec, j, valueTag).Failure?
  {
    var name := s.keys[i].name;
    var s' := RemoveKey(s, name).value;
    RemoveKeyLeavesStaleRequiredName(s, i);
    var tags := FieldTags(s', rec[j], valueTag);
    ParseFieldAccepts(s', rec, j, valueTag);
    if forall k :: 0 <= k < |tags| ==> CheckTag(s'.keys, tags[k]).Pass? {
      forall k | 0 <= k < |tags|
        ensures tags[k].key != name
      {
        assert CheckTag(s'.keys, tags[k]).Pass?;
      }
      assert !HasTagKey(tags, name);
    }
  }
}

=== FILE: records.dfy ===
/**
 * The reflection capability the pipeline consumes, reduced to data: a struct
 * is an ordered sequence of field descriptors, each with its name, whether it
 * is exported, its kind, its struct-tag annotations, whether its storage can
 * be written, and the value it currently holds.
 */
module Records {
  import opened Wrappers

  /** A Go type, compared by identity. */
  type TypeName = string

  /** A `reflect.Kind` (string, int, struct, ...), kept abstract. */
  type Kind = string

  /** A dynamically typed value: its runtime type and an abstract payload. */
  datatype Value = Value(typ: TypeName, payload: string)

  /** One `name:"content"` entry of a struct tag, already unquoted. */
  datatype Annotation = Annotation(name: string, content: string)

  datatype FieldDescriptor = FieldDescriptor(
    name: string,
    exported: bool,
    kind: Kind,
    annotations: seq<Annotation>,
    settable: bool,
    value: Value)

  type Record = seq<FieldDescriptor>

  /** `reflect.StructTag.Lookup`: the content of the first annotation called `name`. */
  function LookupAnnotation(anns: seq<Annotation>, name: string): (r: Option<string>)
    ensures r.None? <==> forall i :: 0 <= i < |anns| ==> anns[i].name != name
    ensures r.Some? ==> exists i :: 0 <= i < |anns| && anns[i] == Annotation(name, r.value)
                                   && forall j :: 0 <= j < i ==> anns[j].name != name
  {
    if |anns| == 0 then None
    else if anns[0].name == name then Some(anns[0].content)
    else
      var r := LookupAnnotation(anns[1..], name);
      assert r.Some? ==> exists i :: 0 <= i < |anns[1..]| && anns[1..][i] == Annotation(name, r.value)
                                     && forall j :: 0 <= j < i ==> anns[1..][j].name != name;
      r
  }

  /** The record after a write attempt, and whether the write happened. */
  datatype WriteResult = WriteResult(record: Record, outcome: Outcome)

  /**
   * A guarded write into slot `slot`: refused when the slot cannot be set or
   * the new value's type differs from the type of the value it holds.
   */
  function Write(rec: Record, slot: nat, fieldName: string, v: Value): (r: WriteResult)
    requires slot < |rec|
  {
    if !rec[slot].settable then WriteResult(rec, Fail(NotSettable(fieldName)))
    else if rec[slot].value.typ != v.typ then WriteResult(rec, Fail(TypeMismatch(rec[slot].value.typ, v.typ)))
    else WriteResult(rec[slot := rec[slot].(value := v)], Pass)
  }
}

=== FILE: scenarios.dfy ===
/** Concrete cases of the pipeline taken from the library's example program and tests. */
module Scenarios {
  import opened Wrappers
  import opened GoStrings
  import opened Keys
  import opened Tags
  import opened Records
  import opened Fields
  import opened Settings
  import opened Gotags
  import opened Parse

  /** Under the default delimiters, `"gt:10;lt:130"` splits into two segments, left to right. */
  lemma DefaultDelimitersSplit()
    ensures Split("gt:10;lt:130", ";") == ["gt:10", "lt:130"]
  {
    var parts := ["gt:10", "lt:130"];
    NotContainsChar(parts[0], ';');
    NotContainsChar(parts[1], ';');
    SplitJoin(parts, ";");
    assert parts[1..] == ["lt:130"];
    assert Join(parts, ";") == parts[0] + ";" + parts[1];
    assert parts[0] + ";" == "gt:10;";
    assert "gt:10;" + parts[1] == "gt:10;lt:130";
  }

  /** Each of those segments splits at its one `:` into a key and a value. */
  lemma DefaultSegmentsLex()
    ensures NewTagFromString("gt:10", ":") == Success(Tag("gt", "10"))
    ensures NewTagFromString("lt:130", ":") == Success(Tag("lt", "130"))
  {
    NotContainsChar("gt", ':');
    TagRoundTripSingleChar("gt", "10", ":");
    assert "gt" + ":" + "10" == "gt:10";
    NotContainsChar("lt", ':');
    TagRoundTripSingleChar("lt", "130", ":");
    assert "lt" + ":" + "130" == "lt:130";
  }

  function TestSettings(untagged: bool, keys: seq<Key>): (s: TagSettings)
    ensures Delimited(s) && s.name == "testtag" && s.separator == "," && s.equals == "="
    ensures s.includeNotTagged == untagged && s.keys == keys && !s.disableKeyValueLogic && s.processor.None?
  {
    NewTagSettings("testtag", ",", "=", None, untagged, keys)
  }

  function StringField(name: string, anns: seq<Annotation>): FieldDescriptor {
    FieldDescriptor(name, true, "string", anns, true, Value("string", "Test"))
  }

  function IntField(name: string, anns: seq<Annotation>): FieldDescriptor {
    FieldDescriptor(name, true, "int", anns, true, Value("int", "55"))
  }

  /** The bare annotation `required` lexes to one tag with the empty value. */
  lemma BareRequiredLexes(s: TagSettings, valueTag: string -> Tag)
    requires Delimited(s) && s.name == "testtag" && s.separator == "," && s.equals == "=" && !s.disableKeyValueLogic
    ensures FieldTags(s, StringField("Name", [Annotation("testtag", "required")]), valueTag) == [Tag("required", "")]
  {
    NotContainsChar("required", ',');
    NotContainsChar("required", '=');
    assert Split("required", ",") == ["required"];
  }

  function UntaggedSettings(): TagSettings {
    TestSettings(true, [NewKey("required", true, false, None)])
  }

  function NameAndAge(): Record {
    [StringField("Name", [Annotation("testtag", "required")]), IntField("Age", [])]
  }

  lemma NameFieldParses(valueTag: string -> Tag)
    ensures ParseField(UntaggedSettings(), NameAndAge(), 0, valueTag)
            == Success(Field(0, "Name", "string", [Tag("required", "")]))
  {
    var s, rec := UntaggedSettings(), NameAndAge();
    assert s.keysRequired == [];
    BareRequiredLexes(s, valueTag);
    assert CheckTag(s.keys, Tag("required", "")) == Pass;
  }

  lemma AgeFieldParses(valueTag: string -> Tag)
    ensures ParseField(UntaggedSettings(), NameAndAge(), 1, valueTag) == Success(Field(1, "Age", "int", []))
  {
    var s, rec := UntaggedSettings(), NameAndAge();
    assert s.keysRequired == [];
    UntaggedFieldHandling(s, rec, 1, valueTag);
  }

  lemma NameAndAgeKept()
    ensures Skips(UntaggedSettings(), NameAndAge()) == [false, false]
  {
    var s, rec := UntaggedSettings(), NameAndAge();
    SelectionRule(s, rec[0]);
    SelectionRule(s, rec[1]);
  }

  lemma IncludeUntaggedWalk(valueTag: string -> Tag)
    ensures ParseFields(UntaggedSettings(), NameAndAge(), valueTag) ==
              Success([Field(0, "Name", "string", [Tag("required", "")]), Field(1, "Age", "int", [])])
  {
    NameFieldParses(valueTag);
    AgeFieldParses(valueTag);
    NameAndAgeKept();
    CollectBoth(Skips(UntaggedSettings(), NameAndAge()), Parsed(UntaggedSettings(), NameAndAge(), valueTag));
  }

  /**
   * With untagged fields included, a struct whose first field is tagged
   * `required` and whose second is untagged yields both fields, the second
   * with no tags.
   */
  lemma IncludeUntaggedExample(valueTag: string -> Tag)
    ensures ParseStruct(UntaggedSettings(), NameAndAge(), valueTag) ==
              Success([Field(0, "Name", "string", [Tag("required", "")]), Field(1, "Age", "int", [])])
  {
    IncludeUntaggedWalk(valueTag);
    assert UntaggedSettings().processor.None?;
  }

  /** The walk over two positions that are both kept and both parsed. */
  lemma CollectBoth<F>(skip: seq<bool>, parsed: seq<Result<F>>)
    requires skip == [false, false] && |parsed| == 2 && parsed[0].Success? && parsed[1].Success?
    ensures Collect(skip, parsed, 0) == Success([parsed[0].value, parsed[1].value])
  {
    var a, b := parsed[0].value, parsed[1].value;
    assert Collect(skip, parsed, 2) == Success([]);
    assert [b] + [] == [b];
    assert Collect(skip, parsed, 1) == Success([b]);
    assert [a] + [b] == [a, b];
  }

  /** The walk over two positions of which the first is skipped and the second failed. */
  lemma CollectSkipThenFail<F>(skip: seq<bool>, parsed: seq<Result<F>>)
    requires skip == [true, false] && |parsed| == 2 && parsed[1].Failure?
    ensures Collect(skip, parsed, 0) == Failure(parsed[1].error)
  {
    assert Collect(skip, parsed, 1) == Failure(parsed[1].error);
  }

  function RequiredAndHmm(): TagSettings {
    TestSettings(false, [NewKey("required", true, true, None), NewKey("hmm", true, false, None)])
  }

  function UntaggedNameTaggedAge(): Record {
    [StringField("Name", []), IntField("Age", [Annotation("testtag", "hmm")])]
  }

  lemma HmmLexes(valueTag: string -> Tag)
    ensures FieldTags(RequiredAndHmm(), UntaggedNameTaggedAge()[1], valueTag) == [Tag("hmm", "")]
  {
    NotContainsChar("hmm", ',');
    NotContainsChar("hmm", '=');
    assert Split("hmm", ",") == ["hmm"];
  }

  lemma HmmValidates(valueTag: string -> Tag)
    ensures ValidateTags(RequiredAndHmm().keys, FieldTags(RequiredAndHmm(), UntaggedNameTaggedAge()[1], valueTag)) == Pass
  {
    HmmLexes(valueTag);
    assert CheckTag(RequiredAndHmm().keys, Tag("hmm", "")) == Pass;
  }

  lemma HmmFieldFails(valueTag: string -> Tag)
    ensures ParseField(RequiredAndHmm(), UntaggedNameTaggedAge(), 1, valueTag) == Failure(MissingRequiredKey("Age", "required"))
  {
    var s, rec := RequiredAndHmm(), UntaggedNameTaggedAge();
    assert s.keysRequired == ["required"];
    HmmLexes(valueTag);
    HmmValidates(valueTag);
    assert !HasTagKey([Tag("hmm", "")], "required");
  }

  lemma HmmSelection()
    ensures Skips(RequiredAndHmm(), UntaggedNameTaggedAge()) == [true, false]
  {
    var s, rec := RequiredAndHmm(), UntaggedNameTaggedAge();
    SelectionRule(s, rec[0]);
    SelectionRule(s, rec[1]);
  }

  lemma MissingRequiredKeyWalk(valueTag: string -> Tag)
    ensures ParseFields(RequiredAndHmm(), UntaggedNameTaggedAge(), valueTag) == Failure(MissingRequiredKey("Age", "required"))
  {
    HmmSelection();
    HmmFieldFails(valueTag);
    CollectSkipThenFail(Skips(RequiredAndHmm(), UntaggedNameTaggedAge()), Parsed(RequiredAndHmm(), UntaggedNameTaggedAge(), valueTag));
  }

  /**
   * A field tagged `hmm` under a schema whose `required` key is marked
   * required fails with the missing required key, and no fields are returned.
   */
  lemma MissingRequiredKeyExample(valueTag: string -> Tag)
    ensures ParseStruct(RequiredAndHmm(), UntaggedNameTaggedAge(), valueTag) == Failure(MissingRequiredKey("Age", "required"))
  {
    MissingRequiredKeyWalk(valueTag);
  }
}

=== FILE: settings.dfy ===
/** The parse configuration and its builder operations (tag_settings.go). */
module Settings {
  import opened Wrappers
  import opened Keys
  import opened Fields

  /** A user-supplied per-field hook; its body is not part of the model. */
  type Processor = Field -> Outcome

  /**
   * The annotation name to look up, the two delimiters, the registered keys,
   * the optional processor, the two behaviour flags, and the cached names of
   * the required keys.
   */
  datatype TagSettings = TagSettings(
    name: string,
    separator: string,
    equals: string,
    keys: seq<Key>,
    processor: Option<Processor>,
    includeNotTagged: bool,
    disableKeyValueLogic: bool,
    keysRequired: seq<string>)

  /** The names of the keys marked required, in key order (`requiredKeys`). */
  function RequiredKeys(keys: seq<Key>): (r: seq<string>)
    ensures |r| <= |keys|
    ensures forall n :: n in r <==> exists i :: 0 <= i < |keys| && keys[i].isRequired && keys[i].name == n
  {
    if |keys| == 0 then []
    else
      var rest := RequiredKeys(keys[1..]);
      assert forall i :: 1 <= i < |keys| ==> keys[i] == keys[1..][i - 1];
      (if keys[0].isRequired then [keys[0].name] else []) + rest
  }

  /** Filtering distributes over concatenation of key lists. */
  lemma {:induction false} RequiredKeysAppend(a: seq<Key>, b: seq<Key>)
    ensures RequiredKeys(a + b) == RequiredKeys(a) + RequiredKeys(b)
    decreases |a|
  {
    if |a| == 0 {
      assert a + b == b;
    } else {
      assert (a + b)[1..] == a[1..] + b;
      assert (a + b)[0] == a[0];
      RequiredKeysAppend(a[1..], b);
      var head := if a[0].isRequired then [a[0].name] else [];
      assert RequiredKeys(a + b) == head + RequiredKeys(a[1..] + b);
      assert RequiredKeys(a) == head + RequiredKeys(a[1..]);
    }
  }

  /** The cache of required names agrees with the registered keys. */
  predicate Valid(s: TagSettings) {
    s.keysRequired == RequiredKeys(s.keys)
  }

  /** Every setting other than the separators, the flags and the processor is as in `s`. */
  ghost predicate SameSchema(s: TagSettings, r: TagSettings) {
    r.name == s.name && r.keys == s.keys && r.keysRequired == s.keysRequired
  }

  /** Turns key/value splitting off; nothing else changes. */
  function WithNoKeyValueLogic(s: TagSettings): (r: TagSettings)
    ensures r.disableKeyValueLogic
    ensures SameSchema(s, r) && r.separator == s.separator && r.equals == s.equals
    ensures r.processor == s.processor && r.includeNotTagged == s.includeNotTagged
    ensures Valid(s) ==> Valid(r)
  {
    s.(disableKeyValueLogic := true)
  }

  /** Sets both delimiters and turns key/value splitting back on; nothing else changes. */
  function WithCustomSeparators(s: TagSettings, separator: string, equals: string): (r: TagSettings)
    ensures r.separator == separator && r.equals == equals && !r.disableKeyValueLogic
    ensures SameSchema(s, r) && r.processor == s.processor && r.includeNotTagged == s.includeNotTagged
    ensures Valid(s) ==> Valid(r)
  {
    s.(separator := separator, equals := equals, disableKeyValueLogic := false)
  }

  /**
   * Installs the processor, or with `None` (Go's `nil`) removes it; nothing
   * else changes.
   */
  function WithProcessor(s: TagSettings, processor: Option<Processor>): (r: TagSettings)
    ensures r.processor == processor
    ensures SameSchema(s, r) && r.separator == s.separator && r.equals == s.equals
    ensures r.includeNotTagged == s.includeNotTagged && r.disableKeyValueLogic == s.disableKeyValueLogic
    ensures Valid(s) ==> Valid(r)
  {
    s.(processor := processor)
  }

  /** Makes untagged fields part of the result; nothing else changes. */
  function IncludeUntaggedFields(s: TagSettings): (r: TagSettings)
    ensures r.includeNotTagged
    ensures SameSchema(s, r) && r.separator == s.separator && r.equals == s.equals
    ensures r.processor == s.processor && r.disableKeyValueLogic == s.disableKeyValueLogic
    ensures Valid(s) ==> Valid(r)
  {
    s.(includeNotTagged := true)
  }

  /** Every setting other than the keys and the cache is as in `s`. */
  ghost predicate SameOptions(s: TagSettings, r: TagSettings) {
    && r.name == s.name && r.separator == s.separator && r.equals == s.equals
    && r.processor == s.processor && r.includeNotTagged == s.includeNotTagged
    && r.disableKeyValueLogic == s.disableKeyValueLogic
  }

  /**
   * Appends a key, without checking for duplicates, and appends its name to
   * the cache exactly when it is required, which keeps the cache in step.
   */
  function AddKey(s: TagSettings, key: Key): (r: TagSettings)
    ensures r.keys == s.keys + [key]
    ensures key.isRequired ==> r.keysRequired == s.keysRequired + [key.name]
    ensures !key.isRequired ==> r.keysRequired == s.keysRequired
    ensures SameOptions(s, r)
    ensures Valid(s) ==> Valid(r)
  {
    RequiredKeysAppend(s.keys, [key]);
    var r := s.(keys := s.keys + [key]);
    if key.isRequired then r.(keysRequired := s.keysRequired + [key.name]) else r
  }

  /** One step of `AddKeys`: adding the next key extends both lists by that key's share. */
  lemma AddKeyExtends(s: TagSettings, r: TagSettings, keys: seq<Key>, i: nat)
    requires i < |keys| && r.keys == s.keys + keys[..i]
    requires r.keysRequired == s.keysRequired + RequiredKeys(keys[..i]) && SameOptions(s, r)
    ensures AddKey(r, keys[i]).keys == s.keys + keys[..i + 1]
    ensures AddKey(r, keys[i]).keysRequired == s.keysRequired + RequiredKeys(keys[..i + 1])
    ensures SameOptions(s, AddKey(r, keys[i]))
  {
    assert keys[..i + 1] == keys[..i] + [keys[i]];
    RequiredKeysAppend(keys[..i], [keys[i]]);
    assert [keys[i]][1..] == [];
    assert RequiredKeys([keys[i]]) == if keys[i].isRequired then [keys[i].name] else [];
  }

  /** Adds the keys one after another, in order. */
  method AddKeys(s: TagSettings, keys: seq<Key>) returns (r: TagSettings)
    ensures r.keys == s.keys + keys
    ensures r.keysRequired == s.keysRequired + RequiredKeys(keys)
    ensures SameOptions(s, r)
    ensures Valid(s) ==> Valid(r)
  {
    r := s;
    var i := 0;
    assert keys[..0] == [];
    while i < |keys|
      invariant 0 <= i <= |keys|
      invariant r.keys == s.keys + keys[..i]
      invariant r.keysRequired == s.keysRequired + RequiredKeys(keys[..i])
      invariant SameOptions(s, r)
    {
      AddKeyExtends(s, r, keys, i);
      r := AddKey(r, keys[i]);
      i := i + 1;
    }
    assert keys[..i] == keys;
    RequiredKeysAppend(s.keys, keys);
  }

  /** No two registered keys share the name `name`. */
  predicate AtMostOnce(keys: seq<Key>, name: string) {
    forall i, j :: 0 <= i < |keys| && 0 <= j < |keys| && keys[i].name == name && keys[j].name == name ==> i == j
  }

  /**
   * The loop of `RemoveKey` as Go runs it. `range` fixes the number of
   * iterations at the original length and reads each element from the shared
   * backing array `arr`, of which the first `len` entries are the current
   * keys. Removing entry `idx` shifts `arr[idx + 1..len]` one place left in
   * place and shortens the slice; the slice expression `keys[idx + 1:]`
   * panics once `idx + 1` exceeds the current length.
   */
  function RemoveLoop(arr: seq<Key>, len: nat, idx: nat, name: string): (r: Result<seq<Key>>)
    requires len <= |arr| && idx <= |arr|
    ensures r.Success? ==> |r.value| <= len
    ensures r.Failure? ==> r.error.SliceOutOfRange? && r.error.low > r.error.high
    decreases |arr| - idx
  {
    if idx == |arr| then Success(arr[..len])
    else if arr[idx].name != name then RemoveLoop(arr, len, idx + 1, name)
    else if idx + 1 > len then Failure(SliceOutOfRange(idx + 1, len))
    else RemoveLoop(arr[..idx] + arr[idx + 1..len] + arr[len - 1..], len - 1, idx + 1, name)
  }

  /** Positions without the name are passed over. */
  lemma {:induction false} RemoveLoopSkips(arr: seq<Key>, len: nat, idx: nat, stop: nat, name: string)
    requires len <= |arr| && idx <= stop <= |arr|
    requires forall j :: idx <= j < stop ==> arr[j].name != name
    ensures RemoveLoop(arr, len, idx, name) == RemoveLoop(arr, len, stop, name)
    decreases stop - idx
  {
    if idx < stop {
      RemoveLoopSkips(arr, len, idx + 1, stop, name);
    }
  }

  /**
   * Once the loop reaches the only key called `name`, it removes it; the
   * entries it visits afterwards are shifted keys of other names.
   */
  lemma RemoveLoopAt(keys: seq<Key>, name: string, i: nat)
    requires AtMostOnce(keys, name) && i < |keys| && keys[i].name == name
    ensures RemoveLoop(keys, |keys|, i, name) == Success(keys[..i] + keys[i + 1..])
  {
    var n := |keys|;
    var arr := keys[..i] + keys[i + 1..n] + keys[n - 1..];
    assert RemoveLoop(keys, n, i, name) == RemoveLoop(arr, n - 1, i + 1, name);
    forall j | i + 1 <= j < n
      ensures arr[j].name != name
    {
      if j < n - 1 {
        assert arr[j] == keys[j + 1];
      } else {
        assert arr[j] == keys[n - 1];
      }
    }
    RemoveLoopSkips(arr, n - 1, i + 1, n, name);
    assert arr[..n - 1] == keys[..i] + keys[i + 1..];
  }

  /**
   * With at most one key called `name`, the loop removes exactly that key, or
   * nothing when there is none, and cannot panic.
   */
  lemma RemoveLoopSingle(keys: seq<Key>, name: string)
    requires AtMostOnce(keys, name)
    ensures (forall i :: 0 <= i < |keys| ==> keys[i].name != name) ==> RemoveLoop(keys, |keys|, 0, name) == Success(keys)
    ensures forall i :: 0 <= i < |keys| && keys[i].name == name ==>
              RemoveLoop(keys, |keys|, 0, name) == Success(keys[..i] + keys[i + 1..])
  {
    if i :| 0 <= i < |keys| && keys[i].name == name {
      RemoveLoopSkips(keys, |keys|, 0, i, name);
      RemoveLoopAt(keys, name, i);
    } else {
      RemoveLoopSkips(keys, |keys|, 0, |keys|, name);
      assert keys[..|keys|] == keys;
    }
  }

  /**
   * Removes the key called `name`, keeping the others in order. The cache of
   * required names is left exactly as it was, even when the removed key was
   * required (see `RemoveKeyLeavesStaleRequiredName`). Several keys of that
   * name make the loop misbehave (see `RemoveKeyPanicsOnSeparatedDuplicates`).
   */
  function RemoveKey(s: TagSettings, name: string): (r: Result<TagSettings>)
    ensures AtMostOnce(s.keys, name) ==> r.Success?
    ensures AtMostOnce(s.keys, name) ==> forall i :: 0 <= i < |r.value.keys| ==> r.value.keys[i].name != name
    ensures AtMostOnce(s.keys, name) ==>
              forall i :: 0 <= i < |s.keys| && s.keys[i].name == name ==> r.value.keys == s.keys[..i] + s.keys[i + 1..]
    ensures (forall i :: 0 <= i < |s.keys| ==> s.keys[i].name != name) ==> r == Success(s)
    ensures r.Success? ==> r.value.keysRequired == s.keysRequired && SameOptions(s, r.value)
  {
    var loop := RemoveLoop(s.keys, |s.keys|, 0, name);
    assert AtMostOnce(s.keys, name) ==>
             && ((forall i :: 0 <= i < |s.keys| ==> s.keys[i].name != name) ==> loop == Success(s.keys))
             && (forall i :: 0 <= i < |s.keys| && s.keys[i].name == name ==> loop == Success(s.keys[..i] + s.keys[i + 1..])) by {
      if AtMostOnce(s.keys, name) { RemoveLoopSingle(s.keys, name); }
    }
    match loop
    case Failure(e) => Failure(e)
    case Success(keys) => Success(s.(keys := keys))
  }

  /**
   * Removing a required key breaks the cache: its name stays listed as
   * required although no key of that name is registered any more.
   */
  lemma RemoveKeyLeavesStaleRequiredName(s: TagSettings, i: nat)
    requires Valid(s) && i < |s.keys| && s.keys[i].isRequired
    requires AtMostOnce(s.keys, s.keys[i].name)
    ensures RemoveKey(s, s.keys[i].name).Success?
    ensures !Valid(RemoveKey(s, s.keys[i].name).value)
    ensures s.keys[i].name in RemoveKey(s, s.keys[i].name).value.keysRequired
  {
    var name := s.keys[i].name;
    var r := RemoveKey(s, name).value;
    assert name in RequiredKeys(s.keys);
    assert name !in RequiredKeys(r.keys);
  }

  /**
   * Two keys of the same name with another key between them: the first
   * removal shifts the second one down, the second removal shortens the slice
   * again, and the third iteration slices past its end and panics.
   */
  lemma RemoveKeyPanicsOnSeparatedDuplicates(s: TagSettings, a: Key, b: Key, c: Key)
    requires s.keys == [a, b, c] && a.name == c.name && b.name != a.name
    ensures RemoveKey(s, a.name) == Failure(SliceOutOfRange(3, 1))
  {
    var keys, arr1 := [a, b, c], [b, c, c];
    assert keys[..0] + keys[1..3] + keys[2..] == arr1;
    assert RemoveLoop(keys, 3, 0, a.name) == RemoveLoop(arr1, 2, 1, a.name);
    assert arr1[..1] + arr1[2..2] + arr1[1..] == arr1;
    assert RemoveLoop(arr1, 2, 1, a.name) == RemoveLoop(arr1, 1, 2, a.name);
  }

  /**
   * Two adjacent keys of the same name: the second one is shifted into the
   * position just visited, so one key called `name` is still registered.
   */
  lemma RemoveKeyKeepsAdjacentDuplicate(s: TagSettings, a: Key, b: Key, c: Key)
    requires s.keys == [a, b, c] && a.name == b.name && c.name != a.name
    ensures RemoveKey(s, a.name) == Success(s.(keys := [b, c]))
    ensures RemoveKey(s, a.name).value.keys[0].name == a.name
  {
    var keys, arr1 := [a, b, c], [b, c, c];
    assert keys[..0] + keys[1..3] + keys[2..] == arr1;
    assert RemoveLoop(keys, 3, 0, a.name) == RemoveLoop(arr1, 2, 1, a.name);
    assert RemoveLoop(arr1, 2, 1, a.name) == RemoveLoop(arr1, 2, 3, a.name);
    assert arr1[..2] == [b, c];
  }

  /** The keys not called `name`, in their original order. */
  function WithoutName(keys: seq<Key>, name: string): (r: seq<Key>)
    ensures |r| <= |keys|
    ensures forall i :: 0 <= i < |r| ==> r[i].name != name
  {
    if |keys| == 0 then []
    else
      var rest := WithoutName(keys[1..], name);
      if keys[0].name == name then rest else [keys[0]] + rest
  }

  /** Dropping the keys of one name works piecewise, so the remaining keys keep their order. */
  lemma {:induction false} WithoutNameAppend(a: seq<Key>, b: seq<Key>, name: string)
    ensures WithoutName(a + b, name) == WithoutName(a, name) + WithoutName(b, name)
    decreases |a|
  {
    if |a| == 0 {
      assert a + b == b;
    } else {
      assert (a + b)[1..] == a[1..] + b;
      WithoutNameAppend(a[1..], b, name);
    }
  }

  /** With exactly one key of that name, dropping all of them drops that one. */
  lemma WithoutNameAt(keys: seq<Key>, name: string, i: nat)
    requires AtMostOnce(keys, name) && i < |keys| && keys[i].name == name
    ensures WithoutName(keys, name) == keys[..i] + keys[i + 1..]
  {
    var pre, post := keys[..i], keys[i + 1..];
    assert keys == pre + ([keys[i]] + post);
    WithoutNameAppend(pre, [keys[i]] + post, name);
    WithoutNameAppend([keys[i]], post, name);
    assert [keys[i]][1..] == [];
    assert WithoutName([keys[i]], name) == [];
    WithoutNameAbsent(pre, name);
    WithoutNameAbsent(post, name);
  }

  /** Without any key of that name, nothing is dropped. */
  lemma {:induction false} WithoutNameAbsent(keys: seq<Key>, name: string)
    requires forall i :: 0 <= i < |keys| ==> keys[i].name != name
    ensures WithoutName(keys, name) == keys
    decreases |keys|
  {
    if |keys| > 0 {
      assert forall i :: 1 <= i < |keys| ==> keys[i] == keys[1..][i - 1];
      WithoutNameAbsent(keys[1..], name);
      assert [keys[0]] + keys[1..] == keys;
    }
  }

  /**
   * The removal as evidently intended: every key called `name` goes, the
   * cache is recomputed from the remaining keys, and nothing can panic. With
   * at most one such key it registers the same keys as `RemoveKey`.
   */
  function RemoveKeySynced(s: TagSettings, name: string): (r: TagSettings)
    ensures r.keys == WithoutName(s.keys, name)
    ensures forall i :: 0 <= i < |r.keys| ==> r.keys[i].name != name
    ensures AtMostOnce(s.keys, name) ==> RemoveKey(s, name).Success? && r.keys == RemoveKey(s, name).value.keys
    ensures name !in r.keysRequired
    ensures Valid(r)
    ensures SameOptions(s, r)
  {
    var keys := WithoutName(s.keys, name);
    assert AtMostOnce(s.keys, name) ==> RemoveLoop(s.keys, |s.keys|, 0, name) == Success(keys) by {
      if AtMostOnce(s.keys, name) {
        RemoveLoopSingle(s.keys, name);
        if i :| 0 <= i < |s.keys| && s.keys[i].name == name {
          WithoutNameAt(s.keys, name, i);
        } else {
          WithoutNameAbsent(s.keys, name);
        }
      }
    }
    s.(keys := keys, keysRequired := RequiredKeys(keys))
  }
}

=== FILE: tag_data.dfy ===
/**
 * The earlier revision of the tag unit (tag_data.go). Its splitting and
 * validation bodies are the same as those of tag.go, so they delegate to
 * `Tags`; the contracts are stated again for this revision.
 */
module TagData {
  import opened Wrappers
  import opened GoStrings
  import opened Keys
  import opened Tags

  /** Splits a segment at the first `equals`; never fails for a non-empty `equals`. */
  function NewTagData(tag: string, equals: string): (r: Result<Tag>)
    requires |equals| > 0
    ensures r.Success?
    ensures !Contains(tag, equals) ==> r.value == Tag(tag, "")
    ensures Contains(tag, equals) ==>
              r.value.key + equals + r.value.value == tag && NoneBefore(tag, equals, |r.value.key|)
  {
    NewTagFromString(tag, equals)
  }

  /** Arity check, then the validator's verdict unchanged. */
  function ValidateData(td: Tag, key: Key): (r: Outcome)
    ensures key.isBool && td.value != "" ==> r == Fail(UnexpectedValue(td.key))
    ensures !key.isBool && td.value == "" ==> r == Fail(MissingValue(td.key))
    ensures ArityOk(key, td.value) && key.validator.Some? ==> r == key.validator.value(td.value)
    ensures r.Pass? <==> ArityOk(key, td.value) && Accepts(key, td.value)
  {
    Validate(td, key)
  }

  /** The value is everything after the first `equals`, verbatim, even when it contains `equals`. */
  lemma NewTagDataKeepsRemainder(k: string, v: string, equals: string)
    requires |equals| == 1 && !Contains(k, equals)
    ensures NewTagData(k + equals + v, equals) == Success(Tag(k, v))
  {
    TagRoundTripSingleChar(k, v, equals);
  }
}

=== FILE: tags.dfy ===
/** One `key[=value]` unit of an annotation and its check against a Key (tag.go). */
module Tags {
  import opened Wrappers
  import opened GoStrings
  import opened Keys

  datatype Tag = Tag(key: string, value: string)

  /**
   * Splits one annotation segment at the first `equals`: the text before it
   * is the key and everything after it, verbatim, is the value. A segment
   * without `equals` is a key with the empty value. `SplitN(.., 2)` yields one
   * or two parts, so neither error branch can be taken.
   */
  function NewTagFromString(tagStr: string, equals: string): (r: Result<Tag>)
    requires |equals| > 0
    ensures r.Success?
    ensures !Contains(tagStr, equals) ==> r.value == Tag(tagStr, "")
    ensures Contains(tagStr, equals) ==>
              r.value.key + equals + r.value.value == tagStr && NoneBefore(tagStr, equals, |r.value.key|)
  {
    var parts := SplitFirst(tagStr, equals);
    if |parts| == 0 then Failure(NoKeysDefined)
    else if |parts| > 2 then Failure(UnexpectedFormat(tagStr))
    else Success(Tag(parts[0], if |parts| == 2 then parts[1] else ""))
  }

  /**
   * Joining a key and a value with `equals` and splitting again gives them
   * back, whatever the value contains, provided no occurrence of `equals`
   * starts inside the key.
   */
  lemma TagRoundTrip(k: string, v: string, equals: string)
    requires |equals| > 0
    requires NoneBefore(k + equals + v, equals, |k|)
    ensures NewTagFromString(k + equals + v, equals) == Success(Tag(k, v))
  {
    var s := k + equals + v;
    IndexAfterPrefix(k, equals, v);
    var t := NewTagFromString(s, equals).value;
    assert OccursAt(s, equals, |k|);
    assert Contains(s, equals);
    assert s[|t.key|..|t.key| + |equals|] == equals;
    assert OccursAt(s, equals, |t.key|);
    assert t.key == s[..|k|] == k;
    assert t.value == s[|k| + |equals|..] == v;
  }

  /** With a one-character `equals` it is enough that the key does not contain it. */
  lemma TagRoundTripSingleChar(k: string, v: string, equals: string)
    requires |equals| == 1 && !Contains(k, equals)
    ensures NewTagFromString(k + equals + v, equals) == Success(Tag(k, v))
  {
    SingleCharNoneBefore(k, equals, v);
    TagRoundTrip(k, v, equals);
  }

  /**
   * With a self-overlapping `equals` the round trip can fail even though the
   * key does not contain `equals`: "a" + "aa" + "b" splits as key "" and value "ab".
   */
  lemma OverlappingEqualsShiftsSplit()
    ensures !Contains("a", "aa")
    ensures NewTagFromString("a" + "aa" + "b", "aa") == Success(Tag("", "ab"))
  {
    TagRoundTrip("", "ab", "aa");
    assert "" + "aa" + "ab" == "a" + "aa" + "b";
  }

  /** The arity rule: a boolean key takes no value, any other key needs one. */
  predicate ArityOk(key: Key, value: string) {
    if key.isBool then value == "" else value != ""
  }

  /** The key's validator accepts the value, or there is none. */
  predicate Accepts(key: Key, value: string) {
    key.validator.None? || key.validator.value(value).Pass?
  }

  /**
   * Checks a tag against its key: arity first, then the validator, whose
   * verdict is returned unchanged.
   */
  function Validate(tag: Tag, key: Key): (r: Outcome)
    ensures key.isBool && tag.value != "" ==> r == Fail(UnexpectedValue(tag.key))
    ensures !key.isBool && tag.value == "" ==> r == Fail(MissingValue(tag.key))
    ensures ArityOk(key, tag.value) && key.validator.Some? ==> r == key.validator.value(tag.value)
    ensures r.Pass? <==> ArityOk(key, tag.value) && Accepts(key, tag.value)
  {
    if key.isBool && tag.value != "" then Fail(UnexpectedValue(tag.key))
    else if !key.isBool && tag.value == "" then Fail(MissingValue(tag.key))
    else if key.validator.None? then Pass
    else key.validator.value(tag.value)
  }

  /** When the arity check fails, the validator is never consulted. */
  lemma ArityBeforeValidator(tag: Tag, key: Key, other: Option<Validator>)
    requires !ArityOk(key, tag.value)
    ensures Validate(tag, key) == Validate(tag, key.(validator := other))
  {
  }

  /**
   * A bare key `k` and `k` followed by `equals` and nothing else lex to the
   * same tag, so the arity check treats them identically.
   */
  lemma BareKeyMatchesEmptyValue(k: string, equals: string, key: Key)
    requires |equals| == 1 && !Contains(k, equals)
    ensures NewTagFromString(k, equals) == NewTagFromString(k + equals, equals) == Success(Tag(k, ""))
    ensures Validate(NewTagFromString(k, equals).value, key) == Validate(NewTagFromString(k + equals, equals).value, key)
  {
    TagRoundTripSingleChar(k, "", equals);
    assert k + equals + "" == k + equals;
  }

  /** Some tag in the list has key `key`. */
  predicate HasTagKey(tags: seq<Tag>, key: string) {
    exists i :: 0 <= i < |tags| && tags[i].key == key
  }

  /** The position of the first tag with key `key`, if any. */
  function FindTag(tags: seq<Tag>, key: string): (r: Option<nat>)
    ensures r.None? <==> !HasTagKey(tags, key)
    ensures r.Some? ==> r.value < |tags| && tags[r.value].key == key
    ensures r.Some? ==> forall j :: 0 <= j < r.value ==> tags[j].key != key
  {
    if |tags| == 0 then None
    else if tags[0].key == key then Some(0)
    else match FindTag(tags[1..], key)
      case None => None
      case Some(i) => Some(i + 1)
  }
}

=== FILE: wrappers.dfy ===
/** Failure-carrying result types and the error kinds the tag pipeline reports. */
module Wrappers {

  datatype Option<+T> = None | Some(value: T)

  /** The outcome of an operation that yields a value or fails with an error. */
  datatype Result<+T> = Success(value: T) | Failure(error: Error)

  /** The outcome of an operation that only succeeds or fails (Go's `error` return). */
  datatype Outcome = Pass | Fail(error: Error)

  /**
   * The errors raised by the library. A user callback (validator or processor)
   * may return any error; `Custom` stands for those. `SliceOutOfRange` stands
   * for Go's run-time panic on a slice expression whose lower bound exceeds
   * the slice's length.
   */
  datatype Error =
    | NoKeysDefined
    | UnexpectedFormat(tag: string)
    | UnknownKey(key: string)
    | UnexpectedValue(key: string)
    | MissingValue(key: string)
    | InField(field: string, cause: Error)
    | MissingRequiredKey(field: string, key: string)
    | NotSettable(field: string)
    | TypeMismatch(slotType: string, givenType: string)
    | SliceOutOfRange(low: nat, high: nat)
    | Custom(message: string)
}
